=== FILE: README.md ===
# Doctor-appointment platform: slot generation, validators and list logic

This project models the core of a doctor–patient appointment platform: an
Express/Mongoose backend, a doctor front end and a patient front end. The
model covers four parts.

- **Slot generator.** `createAppointment` takes a validated schedule: a daily
  working window as two "HH:MM" strings, a slot count, a slot length in minutes
  and a date range. For every UTC day in the range it generates the day's slot
  times. It skips any `(doctor, day, time)` already in the appointment store,
  counts the skips, and inserts the rest as `available` slots.
- **Slot record and validators.** This covers the appointment document with its
  status enum, required fields and null defaults. It also covers the backend's
  `scheduleSchema` and `registerDoctorSchema`. Finally it covers the doctor
  front end's slot form, which builds the generator request.
- **List logic in the front ends.** This covers:
  - paging of the doctor search, the appointment tables and the lab dashboard;
  - the search page's sort toggle and comparator;
  - the cancel/delete choice on the appointment tables;
  - lab-result entry and formatting;
  - the pending/completed split of lab records;
  - specialty toggling in the multi-select and the registration checkboxes;
  - the approve/reject update of access requests.
- **Registration form.** This covers the doctor registration form's validation
  and the body it submits.

Times follow the controller. Offsets from UTC midnight are in milliseconds:
`hour·3600000 + minute·60000`, and a slot lasts `averageAppointmentTime·60000`.
A calendar day is its UTC day index, `floor(ms / 86400000)`. That is what
`setUTCHours(0, 0, 0, 0)` computes for a non-negative instant. The store is a
set of `(doctor, day, "HH:MM")` keys, and "now" is a parameter. Whether
`insertMany` succeeds is also a parameter.

Modules, one per file:

| module | covers |
|---|---|
| `Wrappers` | `Option` and `Result` |
| `Numbers` | `Math.max` and `Math.min` |
| `Text` | digit strings, `toString`, `padStart(2, '0')`, `split`, `Number(s)`, `toLowerCase` |
| `ListOps` | `filter` and its order, multiplicity and distinctness facts |
| `AppointmentModel` | the appointment document's validation and defaults |
| `SlotSchedule` | the generator's arithmetic as functions, and its properties |
| `SlotGenerator` | the generator as loop methods whose invariants tie them to `SlotSchedule` |
| `Schemas` | `scheduleSchema`, `registerDoctorSchema` |
| `SlotForm` | the "Create Appointment Slots" form and its `onSubmit` |
| `Pagination` | `slice`, page counts, page contents, Previous/Next/numbered links |
| `AppointmentsTab` | the doctor's appointment tables: which action, what it refreshes |
| `DoctorSearch` | the patient's doctor search: sort toggle, comparator, stable sort, paging |
| `LabDash` | the lab dashboard's paging, result entry and result formatting |
| `LabRecords` | the patient's lab records: pending/completed split and the expanded view |
| `Specialties` | the specialty multi-select and the registration checkboxes |
| `RegisterForm` | the doctor registration form and the body it submits |
| `AccessRequests` | the patient's access-request list after approve/reject |

## Model

| member | source | states |
|---|---|---|
| SlotSchedule.ClockLabelRoundTrip | backend/controllers/appointment.controller.js:35-44 | A slot label read back as a working time ("H:M" split and converted to numbers) gives the same millisecond offset `H·3600000 + M·60000` for any whole-minute offset within a day |
| SlotSchedule.ClockLabelInjective | backend/controllers/appointment.controller.js:63-65 | Two different whole-minute offsets within one day get different zero-padded "HH:MM" labels |
| SlotSchedule.PlanOf | backend/controllers/appointment.controller.js:38-52 | The slot length is the average time times 60000 and is positive; the start offset is a non-negative whole number of minutes |
| SlotSchedule.SlotsPerDayIsCappedCapacity | backend/controllers/appointment.controller.js:46-52 | `slotsPerDay = min(n, floor(window / length))`: it never exceeds the request, its slots fit in the window, and one more slot would exceed the request or overrun the window |
| SlotSchedule.NoWindowNoSlots | backend/controllers/appointment.controller.js:46-60 | When the end time is not after the start time, `slotsPerDay <= 0`, so the inner loop considers no slot on any day |
| SlotSchedule.PlanFits | backend/controllers/appointment.controller.js:49-52 | Every slot the plan allows ends by the end of the working window |
| SlotSchedule.CandidateEndsInWindow | backend/controllers/appointment.controller.js:60-61 | The i-th slot of a day ends by `endOffset`, so the break on line 61 never fires |
| SlotSchedule.ThreeSlotsInAnHour | backend/controllers/appointment.controller.js:49-65 | For 09:00–10:00 with ten 20-minute slots requested, three slots are generated on any day inside the `Date` range: 09:00, 09:20 and 09:40 |
| SlotSchedule.DayCandidates | backend/controllers/appointment.controller.js:58-65 | A day has exactly `slotsPerDay` candidates (none when that is not positive) |
| SlotSchedule.CandidateAt | backend/controllers/appointment.controller.js:57-90 | The candidates run day by day from the first day to the last in increasing order; position `(d - first)·k + i` holds slot `i` of day `d`, labelled by `startOffset + i·length`, or "NaN:NaN" once that instant is past the `Date` range |
| SlotSchedule.CandidateCount | backend/controllers/appointment.controller.js:57-90 | A reversed day range has no candidate; otherwise there are `(days)·slotsPerDay` candidates |
| SlotSchedule.CandidateDaysInRange | backend/controllers/appointment.controller.js:29-33 | Every candidate belongs to the requesting doctor and to a day from the start date's UTC day through the end date's UTC day |
| SlotSchedule.SlotLabelShape | backend/controllers/appointment.controller.js:58-65 | A slot's label has the five characters of "HH:MM" exactly when its instant is a valid `Date`, and is "NaN:NaN" past the range |
| SlotSchedule.LastDayRepeatsInvalidKeys | backend/controllers/appointment.controller.js:58-88 | On the last day a `Date` can hold, 09:00, 09:20 and 09:40 are all past the range and labelled "NaN:NaN", so one key is staged three times |
| SlotSchedule.DayCandidatesDistinct | backend/controllers/appointment.controller.js:60-65 | With a working window inside one day, on a day inside the `Date` range, the slots of one day get pairwise different "HH:MM" labels |
| SlotSchedule.CandidatesDistinct | backend/controllers/appointment.controller.js:57-91 | With a working window inside one day and days inside the `Date` range, no `(doctor, day, time)` key is generated twice in one call |
| SlotSchedule.WindowPastMidnightRepeatsKeys | backend/controllers/appointment.controller.js:57-91 | With "00:00"–"48:00" and two 1440-minute slots, both slots of a day are labelled 00:00, so the same key is staged twice |
| SlotSchedule.SlotDocIsAvailableSlot | backend/controllers/appointment.controller.js:76-83 | A staged row is a valid document that becomes an `available` slot with no patient, type or price |
| SlotSchedule.StagedPlusSkipped | backend/controllers/appointment.controller.js:69-86 | Every candidate is either staged or counted as a duplicate: staged plus skipped equals candidates |
| SlotSchedule.Fresh | backend/controllers/appointment.controller.js:69-86 | A staged key is a candidate not in the store, and every candidate is in the store or staged |
| SlotSchedule.FreshDistinct | backend/controllers/appointment.controller.js:69-86 | Distinct candidates give distinct staged rows |
| SlotSchedule.FreshInEmptyStore | backend/controllers/appointment.controller.js:69-86 | Against a store holding no slot, every candidate is staged, in order |
| SlotSchedule.RerunSkipsEverything | backend/controllers/appointment.controller.js:57-91 | Against a store that already holds every candidate, nothing is staged and every candidate is counted as skipped |
| SlotSchedule.InsertedRowsCoverCandidates | backend/controllers/appointment.controller.js:69-94 | The inserted rows are exactly the documents of the candidates not already stored, so after the insert every candidate has a slot |
| SlotSchedule.SuccessMessage | backend/controllers/appointment.controller.js:95-98 | The message starts with "Appointments created successfully" and has a suffix exactly when the duplicate count is positive |
| SlotSchedule.MessageReportsSkips | backend/controllers/appointment.controller.js:96-98 | For a positive count N, the suffix is " (Skipped N duplicate slots)" with N in decimal |
| SlotGenerator.StageOne | backend/controllers/appointment.controller.js:69-86 | One duplicate check extends the staged rows and the skip count to one more candidate |
| SlotGenerator.StageSlot | backend/controllers/appointment.controller.js:61-88 | One turn of the inner loop renders slot i's label, stages its key or counts it as a duplicate, and moves the slot time on by exactly one slot length |
| SlotGenerator.StageDay | backend/controllers/appointment.controller.js:58-89 | The inner loop stages the day's free candidates in order and counts its duplicates |
| SlotGenerator.StageDays | backend/controllers/appointment.controller.js:57-91 | The day loop leaves exactly the rows of the free candidates of all days and the number of duplicates |
| SlotGenerator.RequestCandidates | backend/controllers/appointment.controller.js:29-57 | The candidates walked are those of the days from the start date's to the end date's, (days)·slotsPerDay of them, all for the doctor and within those days; none when a date is outside the `Date` range |
| SlotGenerator.StageSlots | backend/controllers/appointment.controller.js:29-91 | The generation from the start date's day to the end date's day stages exactly the free candidates, and staged plus skipped equals candidates; a date outside the `Date` range stages nothing |
| SlotGenerator.CreateAppointment | backend/controllers/appointment.controller.js:22-103 | A past start date gives 400 "Start date cannot be in the past." and inserts nothing, while a start date outside the `Date` range is never past; a failed insert gives 500; otherwise 201 with the free candidates inserted, every candidate either already stored or among the inserted rows, and the skip-count message; a date outside the range gives 201 "Appointments created successfully" with nothing inserted |
| Schemas.NonNegativeInt | backend/zodTypes.js:18-25 | Accepted exactly when the value is a non-negative integer number |
| Schemas.PositiveInt | backend/zodTypes.js:26-33 | Accepted exactly when the value is a positive integer number |
| Schemas.NonNegativeNumber | backend/zodTypes.js:34-39 | Accepted exactly when the value is a non-negative number, fractions included, or `Infinity`; the accepted amount is sent back as the same value |
| Schemas.InfinityOnlyAsPrice | backend/zodTypes.js:3-48 | `Infinity` passes the non-negative number check and `-Infinity` does not, neither passes an integer check, and both pass as an optional experience or age |
| Schemas.InfinitePricesAccepted | backend/zodTypes.js:34-39 | A schedule with both prices `Infinity` is accepted with the prices kept as `Infinity`, while an infinite slot count is refused |
| Schemas.ParseSchedule | backend/zodTypes.js:16-62 | A schedule is accepted exactly when every field passes its check, start time < end time and start date <= end date; an accepted one is well formed and carries the body's values |
| Schemas.ScheduleRoundTrip | backend/zodTypes.js:16-62 | Every well-formed schedule, sent as a body, is accepted as itself |
| Schemas.EmptyWindowRefused | backend/zodTypes.js:49-55 | A working start not before the working end is refused |
| Schemas.ReversedDatesRefused | backend/zodTypes.js:56-62 | A start date after the end date is refused |
| Schemas.CountsMustBePositiveIntegers | backend/zodTypes.js:26-33 | A fractional or non-positive slot count or slot length is refused |
| Schemas.RegisterIssues | backend/zodTypes.js:3-13 | A registration is accepted exactly when name is non-empty text, password has at least 6 characters, specialties is a non-empty list of text, and qualifications, experience and age are absent or of their kind; each issue is reported exactly when its check fails |
| Schemas.OptionalNumbersRefuseNaN | backend/zodTypes.js:11-12 | Experience and age may be left out, but NaN or text in their place is refused |
| AppointmentModel.ParseStatus | backend/models/appointment.model.js:23-27 | A status string is accepted only if it is the name of the status it yields |
| AppointmentModel.StatusNamesAccepted | backend/models/appointment.model.js:23-27 | Each of available, confirmed, completed and cancelled is accepted as itself |
| AppointmentModel.Violations | backend/models/appointment.model.js:5-46 | A document is valid exactly when doctor, date and non-empty time are present, the status is in the enum, and every medicine has a non-empty name |
| AppointmentModel.MedicineViolations | backend/models/appointment.model.js:37-46 | No medicine violation exactly when every medicine has a name |
| AppointmentModel.Create | backend/models/appointment.model.js:3-35 | A document is stored exactly when it has no violation; then a left-out status becomes available while an explicit null status stays null, patient, type and price are null unless given, and given fields are kept |
| AppointmentModel.NewSlotDefaults | backend/models/appointment.model.js:10-35 | A document with only doctor, date and time becomes an available slot with null patient, type and price |
| AppointmentModel.NullStatusIsNotDefaulted | backend/models/appointment.model.js:23-27 | A status given as null is stored as null, not replaced by the default available, so the result differs from leaving the status out |
| AppointmentModel.RequiredFieldsEnforced | backend/models/appointment.model.js:5-22 | Leaving out the doctor, the date, the time or a medicine name refuses the document |
| SlotForm.FormIssues | doctor/src/pages/CreateAppointments.jsx:32-55 | The form is accepted exactly when the count is an integer in 1..50, the length is in 15..180, both dates are set and from <= to; each issue appears exactly when its bound fails |
| SlotForm.DefaultsAccepted | doctor/src/pages/CreateAppointments.jsx:62-71 | The defaults (10:00, 16:00, 8, 45) meet every bound but the dates; with dates chosen they are accepted exactly when from <= to |
| SlotForm.OnSubmit | doctor/src/pages/CreateAppointments.jsx:74-110 | A request is posted exactly when both dates and a non-empty token are present; the payload copies the times and the numbers, and the bearer is the token |
| SlotForm.AcceptedFormFeedsGenerator | doctor/src/pages/CreateAppointments.jsx:86-93 | An accepted form with a whole-minute length posts a request the generator accepts: length 15..180, count 1..50, at most 50 slots a day, start date <= end date |
| AppointmentsTab.ActionFor | doctor/src/components/Appointments.jsx:163-172 | A row's button arms cancel exactly in the confirmed table, delete otherwise |
| AppointmentsTab.HandleAction | doctor/src/components/Appointments.jsx:79-102 | With nothing selected nothing happens; cancel sends a cancel request and refreshes only the confirmed table, delete sends a delete request and refreshes only the available table; a successful request refreshes its table and closes and clears the dialog, a failed one refreshes nothing and leaves the dialog as it was; with no action armed no request is sent but the dialog still closes and clears |
| AppointmentsTab.ConfirmActsOnSelectedRow | doctor/src/components/Appointments.jsx:79-102 | Selecting a row and confirming acts on that row with its table's action; success refreshes that table and closes the dialog, failure leaves the dialog unchanged |
| Pagination.JsSlice | patient/src/pages/BookAppointmentPage.jsx:116-119 | `slice` returns the in-range window, nothing for an empty or reversed range, and at most `end - start` items |
| Pagination.PageCount | patient/src/pages/BookAppointmentPage.jsx:115 | `ceil(n / 10)`: enough pages for n items and not one more; zero pages exactly for no items |
| Pagination.PageItemsAreWindow | patient/src/pages/BookAppointmentPage.jsx:115-119 | Page p shows exactly the items at positions `(p-1)·10` up to `p·10` that exist, so at most ten |
| Pagination.PageNonEmptyIffInRange | patient/src/pages/BookAppointmentPage.jsx:115-119 | A page from 1 on has items exactly when it is not past the last page |
| Pagination.PagesCoverList | patient/src/pages/BookAppointmentPage.jsx:115-119 | Pages 1..k in turn show the first `k·10` items in order; all pages together show the whole list |
| Pagination.Clicked | doctor/src/components/Appointments.jsx:181-206 | Previous goes back one page from p > 1 and to page 1 otherwise; Next goes forward one page below the last page and to the last page otherwise; the link at position i goes to page i+1 |
| Pagination.ClickKeepsPageInRange | patient/src/pages/BookAppointmentPage.jsx:210-238 | With the controls shown and the page in range, Previous, Next and every numbered link lead to a page in 1..pages; Previous and Next move exactly one page away from the edges and stay put on the first and last page, and link i leads to page i+1 |
| DoctorSearch.HandleSort | patient/src/pages/BookAppointmentPage.jsx:43-49 | The clicked column becomes the key; a click on a different column sorts ascending |
| DoctorSearch.SecondClickReverses | patient/src/pages/BookAppointmentPage.jsx:43-49 | A click on the column sorted ascending sorts descending, and a second click on the same column reverses it |
| DoctorSearch.LexTotal | patient/src/pages/BookAppointmentPage.jsx:101-106 | String `<` orders any two different strings one way and never both |
| DoctorSearch.FirstSpecialty | patient/src/pages/BookAppointmentPage.jsx:96-99 | Sorting by specialties compares the first specialty, or "" when there is none |
| DoctorSearch.FieldLessOrder | patient/src/pages/BookAppointmentPage.jsx:91-108 | On each column `<` is a strict order in which incomparable doctors have equal keys |
| DoctorSearch.Compare | patient/src/pages/BookAppointmentPage.jsx:91-108 | The comparator gives -1, 0 or 1, and 0 exactly for equal keys |
| DoctorSearch.LeTotalPreorder | patient/src/pages/BookAppointmentPage.jsx:91-108 | The comparator is a consistent total preorder |
| DoctorSearch.SortBy | patient/src/pages/BookAppointmentPage.jsx:91 | The sort is a permutation of the doctors |
| DoctorSearch.SortBySorted | patient/src/pages/BookAppointmentPage.jsx:91-108 | The sort's result is ordered by the comparator |
| DoctorSearch.SortedDoctors | patient/src/pages/BookAppointmentPage.jsx:87-109 | The shown list is a permutation of the doctors, and with no key it is their original order |
| DoctorSearch.SortedDoctorsOrdered | patient/src/pages/BookAppointmentPage.jsx:87-109 | With a key, the list is nondecreasing by that column when ascending and nonincreasing when descending |
| DoctorSearch.AfterSearch | patient/src/pages/BookAppointmentPage.jsx:51-85 | Every search resets the page to 1 and keeps the sort; a failed or unsuccessful search empties the list |
| DoctorSearch.SearchShowsFirstPage | patient/src/pages/BookAppointmentPage.jsx:51-119 | After any search the first (up to) ten doctors of the sorted list are shown |
| LabDash.HandleInputChange | doctor/src/labAssistant/LabDash.jsx:107-115 | The named field of the named test takes the value; every other field of that test and every other test keep their entries |
| LabDash.EditsOfDifferentTestsCommute | doctor/src/labAssistant/LabDash.jsx:107-115 | Edits to two different tests commute |
| LabDash.FormattedResults | doctor/src/labAssistant/LabDash.jsx:121-127 | One line per requested test, in order, with the same test name |
| LabDash.FormattedResultsCarryEntries | doctor/src/labAssistant/LabDash.jsx:121-127 | A typed field is reported as typed and a field never typed as blank; a test is critical only when marked so; an untouched test is reported blank and not critical |
| LabDash.TotalPages | doctor/src/labAssistant/LabDash.jsx:102 | At least one page, and `ceil(n / 10)` for a non-empty list |
| LabDash.CurrentRequests | doctor/src/labAssistant/LabDash.jsx:103-105 | At most ten requests; nothing for a non-list reply; otherwise page p of the list |
| LabDash.LabPagerStaysInRange | doctor/src/labAssistant/LabDash.jsx:282-300 | With the controls shown, Previous is enabled exactly above page 1 and Next exactly below the last page, so both lead to a page in range |
| LabRecords.PendingRecords | patient/src/pages/LabRecords.jsx:172 | A record is pending exactly when it is in the list and not completed |
| LabRecords.CompletedRecords | patient/src/pages/LabRecords.jsx:173 | A record is completed exactly when it is in the list with status "completed" |
| LabRecords.PendingCompletedPartition | patient/src/pages/LabRecords.jsx:172-173 | Each record is in exactly one list, both keep the order, their lengths add up, and together they hold every record as often as the full list |
| LabRecords.Expanded | patient/src/pages/LabRecords.jsx:114-125 | Test cards are shown exactly for a completed record, and they are its tests; any other shows "Results pending" |
| LabRecords.ResultsShownOnlyWhenCompleted | patient/src/pages/LabRecords.jsx:114-173 | Results are shown exactly for the records in the completed list |
| Specialties.Toggle | patient/src/components/SpecialtiesSelect.jsx:44-46 | The toggled value's membership flips, every other value keeps its membership, and an absent value is appended at the end |
| Specialties.DeselectKeepsOthers | patient/src/components/SpecialtiesSelect.jsx:44-45 | Deselecting removes every copy and keeps every other value, in order and as often as before |
| Specialties.ToggleTwice | patient/src/components/SpecialtiesSelect.jsx:44-46 | Toggling twice restores membership, and restores the list when the value was absent |
| Specialties.ToggleKeepsDistinct | patient/src/components/SpecialtiesSelect.jsx:44-46 | A selection without repeats stays without repeats |
| Specialties.HandleSelect | patient/src/components/SpecialtiesSelect.jsx:43-51 | The list closes, the selection is toggled, and `onChange` (when given) receives exactly the new selection |
| Specialties.CheckboxChange | doctor/src/pages/RegisterPage.jsx:184-190 | Checking appends the lowercased name; unchecking removes every copy and keeps the membership of the others |
| Specialties.CheckboxClickToggles | doctor/src/pages/RegisterPage.jsx:175-190 | A click toggles the lowercased name; values built by clicks hold only lowercased offered names, none twice |
| RegisterForm.FormIssues | doctor/src/pages/RegisterPage.jsx:40-62 | The form is accepted exactly when name has at least 2 characters, password at least 8, a specialty is chosen, experience is empty or >= 0, and age is empty or >= 18 |
| RegisterForm.NumberOrUndefined | doctor/src/pages/RegisterPage.jsx:87-88 | An empty field becomes undefined; a number is what `Number` gives for the text |
| RegisterForm.SubmittedBody | doctor/src/pages/RegisterPage.jsx:85-89 | The other fields are sent unchanged; age and experience are sent as numbers or left out when empty |
| RegisterForm.AcceptedFormPassesBackend | doctor/src/pages/RegisterPage.jsx:40-89 | What the form accepts, the backend accepts, with a submitted age >= 18 and experience >= 0 |
| RegisterForm.BackendLaxerThanForm | doctor/src/pages/RegisterPage.jsx:41-43 | A one-letter name and a six-character password pass the backend but not the form |
| RegisterForm.ExperienceAsTyped | doctor/src/pages/RegisterPage.jsx:48-54 | A whole number of years is accepted and sent as that number; a negative one is refused |
| AccessRequests.Reject | patient/src/components/AccessRequests.jsx:53-54 | Rejecting keeps exactly the other doctors' requests, in order and as often as they occurred |
| AccessRequests.Approve | patient/src/components/AccessRequests.jsx:55-61 | Approving keeps every position, marks the doctor's requests approved and leaves the rest unchanged |
| AccessRequests.AfterAccessUpdate | patient/src/components/AccessRequests.jsx:41-68 | A failed call leaves the list as it was; the list never grows |
| AccessRequests.RejectRemovesOnlyThatDoctor | patient/src/components/AccessRequests.jsx:53-54 | After a reject, no request of that doctor remains, and every other request remains in order and as often |
| AccessRequests.ApproveMarksOnlyThatDoctor | patient/src/components/AccessRequests.jsx:55-61 | After an approve, the doctor's requests are approved with id and name kept, and the others are untouched |
| AccessRequests.ApproveIdempotent | patient/src/components/AccessRequests.jsx:55-61 | Approving twice is approving once |
| Text.NatToStringRoundTrip | backend/controllers/appointment.controller.js:63-64 | A count rendered by `toString` reads back as the count |
| Text.Pad2RoundTrip | backend/controllers/appointment.controller.js:63-64 | An hour or minute below 100, padded to two digits, is exactly two digits and reads back as itself |
| ListOps.FilterIsSubsequence | patient/src/pages/LabRecords.jsx:172-173 | `filter` keeps the surviving elements in their original order |
| ListOps.FilterPartition | patient/src/pages/LabRecords.jsx:172-173 | A filter and its complement split the list by size and by multiset |

## Left out

- Persistence and the network are not modelled. Mongoose queries, `insertMany`, axios calls and Express routing are all outside the model. The store is a set of keys. The insert's outcome is a boolean parameter, and a failed insert stores nothing: the model treats `insertMany` as all-or-nothing.
- Concurrency is not modelled. The gap between `findOne` and `insertMany` is a database concern.
- Authentication is not modelled: JWT, bcrypt, the lab login, and where the token comes from. `SlotForm.OnSubmit` takes the stored token as an input.
- The doctor id comes from the request's authenticated doctor. It is a parameter here.
- The controller and `scheduleSchema` disagree on field names. The controller reads `dailyWorkingStartTime`/`dailyWorkingEndTime` (backend/controllers/appointment.controller.js:11-18). The schema defines `workingStartTimestamp`/`workingEndTimestamp` plus two prices (backend/zodTypes.js:18-39), and zod drops keys it does not define. The two are modelled separately, as they are written. `SlotGenerator.CreateAppointment` takes the request after the 400 "Validation failed" branch (lines 6-9), which `Schemas.ParseSchedule` models. This wiring is not reconciled. The slot form's own body would also fail `scheduleSchema`. It sends `startDate` and `endDate` as ISO strings (doctor/src/pages/CreateAppointments.jsx:91-92), where the schema wants numbers. It also leaves out both working timestamps and both prices. So the source answers every submission of this form with 400 "Validation failed". Where this model speaks of a request the generator accepts (`SlotForm.AcceptedFormFeedsGenerator`), it means the request as the controller reads it once validation has passed.
- The route is `/schedule` (backend/routes/appointment.route.js:14), but the form posts to `/create` (doctor/src/pages/CreateAppointments.jsx:102). That routing is not modelled.
- The form allows a fractional slot length, which the backend's `.int()` refuses. `SlotForm.AcceptedFormFeedsGenerator` assumes a whole-minute length.
- Dates are integers (milliseconds, or day indices). The ISO rendering `toISOString()` and its parsing are not modelled, and neither are time zones or `toLocaleDateString`.
- `new Date(startDate)` is taken as an integer millisecond instant. A `Date` holds at most 8.64e15 ms, but the schema accepts any non-negative integer date. The model follows the source beyond that range: an out-of-range date never counts as past, walks no day, and gets 201 with nothing inserted. A slot whose instant passes the range is labelled "NaN:NaN". `nowMs` is taken to be a valid time, as the clock's is.
- Times are kept in milliseconds, as the controller computes them, rather than in minutes.
- `SlotSchedule.CandidatesDistinct` requires the working window to lie within one day: start >= 00:00 and end <= 24:00. The controller does not check the hour range, and `SlotSchedule.WindowPastMidnightRepeatsKeys` shows the same key generated twice outside it. It also requires the days to lie inside the `Date` range; `SlotSchedule.LastDayRepeatsInvalidKeys` shows the repeated "NaN:NaN" key on the last day.
- Text.JsNumber: covers only the forms a numeric input yields:
  - an optional minus or plus sign, digits, and at most one decimal point;
  - the empty string, as 0.
  Any other text is NaN. The forms not covered, treated as NaN, are surrounding whitespace, exponents, hexadecimal, and `Infinity`.
- SlotSchedule.PlanOf: reads the `"H:M"` working times only when both fields are made of decimal digits (an empty field is 0); for any other field it gives a slot count of 0. This is narrower than the source. `split(':').map(Number)` (backend/controllers/appointment.controller.js:38-41) also accepts fields such as `" 9"`, `"+9"`, `"9.5"`, `"1e1"` and `"-1"`, and the controller then generates slots from those values. Such fields are not modelled: they would need fractional and negative offsets. Only text that `Number` turns into NaN gives no slot in the source.
- SlotSchedule.ParseWorkingTime: the same restriction. A field other than decimal digits gives `None`, which matches the source only when `Number` gives NaN for it.
- Schemas.TextAtLeast and RegisterForm.FormIssues: measure a string in characters, since a Dafny `string` is a sequence of characters. Zod's `.min()` and the form's `.length` count UTF-16 code units. A character outside the Basic Multilingual Plane counts 2 there and 1 here. So a one-emoji name fails the form's minimum of 2 here, while the form accepts it. UTF-16 encoding is not modelled.
- DoctorSearch.LexLess: compares characters, while JavaScript's `<` compares UTF-16 code units. The two orders differ only between a character outside the Basic Multilingual Plane and one in U+E000 to U+FFFF.
- Schemas.RegisterIssues and RegisterForm.FormIssues: the e-mail format check (`z.string().email()`, in both the backend schema and the registration form) is not modelled; "accepted exactly when" in their rows holds up to that check. It is a library built-in whose rules are not part of this code.
- `DoctorSearch`: doctors are assumed to have a numeric `experience`. Comparisons between a missing value, a string and a number (`undefined < 3`) are not modelled.
- `DoctorSearch.SortBy` is a stable insertion sort. It stands for `Array.prototype.sort`, which is stable since ES2019. Only the result's order and its being a permutation are stated, not the algorithm.
- `LabDash`: resetting the entries and refetching after a submit (doctor/src/labAssistant/LabDash.jsx:142-146) is not modelled. It is a state reset followed by a network call.
- `LabDash.FormattedResults`: `isCritical` is carried as typed. The `||` defaults turn a missing field into `''`/`false`. A typed empty string is also `''`, so the two agree.
- The AI consultation summary, the booking, cancel and delete handlers on the server, and the presentation-only pages and components are not part of this model.
- Toasts, alerts, the loading flags and `console` output are not modelled.

=== FILE: access_requests.dfy ===
/** The patient's access-request dialog
    (patient/src/components/AccessRequests.jsx): how the list of doctors'
    requests for record access changes after the patient approves or rejects
    one, given whether the update call succeeded. */
module AccessRequests {
  import opened ListOps

  datatype AccessRequest = AccessRequest(doctorId: string, doctorName: string, approvalStatus: bool)

  /** `requests.filter(req => req.doctorId._id !== doctorId)`: the requests of
      every other doctor, in order and as often as they occurred. */
  function Reject(requests: seq<AccessRequest>, doctorId: string): (r: seq<AccessRequest>)
    ensures forall q :: q in r <==> q in requests && q.doctorId != doctorId
    ensures SubsequenceOf(r, requests)
    ensures forall q: AccessRequest :: q.doctorId != doctorId ==> multiset(r)[q] == multiset(requests)[q]
  {
    var keep := (q: AccessRequest) => q.doctorId != doctorId;
    FilterIsSubsequence(requests, keep);
    assert forall q: AccessRequest :: q.doctorId != doctorId ==> multiset(Filter(requests, keep))[q] == multiset(requests)[q] by {
      forall q: AccessRequest | q.doctorId != doctorId
        ensures multiset(Filter(requests, keep))[q] == multiset(requests)[q]
      {
        FilterMultiplicity(requests, keep, q);
      }
    }
    Filter(requests, keep)
  }

  /** `requests.map(req => req.doctorId._id === doctorId ? { ...req, approvalStatus: true } : req)`. */
  function Approve(requests: seq<AccessRequest>, doctorId: string): (r: seq<AccessRequest>)
    ensures |r| == |requests|
    ensures forall i :: 0 <= i < |r| ==>
      r[i] == if requests[i].doctorId == doctorId then requests[i].(approvalStatus := true) else requests[i]
  {
    seq(|requests|, i requires 0 <= i < |requests| =>
      if requests[i].doctorId == doctorId then requests[i].(approvalStatus := true) else requests[i])
  }

  /** `handleAccessUpdate`: a failed call leaves the list as it was; otherwise the
      decision is applied. */
  function AfterAccessUpdate(requests: seq<AccessRequest>, doctorId: string, approved: bool,
                             callSucceeded: bool): (r: seq<AccessRequest>)
    ensures !callSucceeded ==> r == requests
    ensures |r| <= |requests|
  {
    if !callSucceeded then requests
    else if approved then Approve(requests, doctorId)
    else Reject(requests, doctorId)
  }

  /** Rejecting a doctor removes every request of that doctor and keeps all the
      others, in order and as often as they occurred. */
  lemma RejectRemovesOnlyThatDoctor(requests: seq<AccessRequest>, doctorId: string)
    ensures var r := AfterAccessUpdate(requests, doctorId, false, true);
      && (forall q :: q in r ==> q.doctorId != doctorId)
      && SubsequenceOf(r, requests)
      && (forall q: AccessRequest :: q.doctorId != doctorId ==> multiset(r)[q] == multiset(requests)[q])
  {
  }

  /** Approving keeps every position: the doctor's requests become approved with
      nothing else changed, and every other request is untouched. */
  lemma ApproveMarksOnlyThatDoctor(requests: seq<AccessRequest>, doctorId: string)
    ensures var r := AfterAccessUpdate(requests, doctorId, true, true);
      && |r| == |requests|
      && (forall i :: 0 <= i < |r| && requests[i].doctorId == doctorId ==>
            r[i].approvalStatus && r[i].doctorId == doctorId && r[i].doctorName == requests[i].doctorName)
      && (forall i :: 0 <= i < |r| && requests[i].doctorId != doctorId ==> r[i] == requests[i])
  {
  }

  /** Approving twice is approving once. */
  lemma ApproveIdempotent(requests: seq<AccessRequest>, doctorId: string)
    ensures Approve(Approve(requests, doctorId), doctorId) == Approve(requests, doctorId)
  {
  }
}

=== FILE: appointment_model.dfy ===
/** The appointment slot record of the backend (one Mongoose document per
    bookable slot): its status enumeration, its required fields and the
    defaults a new document receives, and the validation a document passes
    before it is stored. */
module AppointmentModel {
  import opened Wrappers

  type DoctorId = string
  type PatientId = string

  datatype Status = Available | Confirmed | Completed | Cancelled

  /** The string stored for each status. */
  function StatusName(s: Status): string {
    match s
    case Available => "available"
    case Confirmed => "confirmed"
    case Completed => "completed"
    case Cancelled => "cancelled"
  }

  /** The enum check on `status`: a string is accepted only if it names one of the four statuses. */
  function ParseStatus(name: string): (r: Option<Status>)
    ensures r.Some? ==> StatusName(r.value) == name
  {
    if name == "available" then Some(Available)
    else if name == "confirmed" then Some(Confirmed)
    else if name == "completed" then Some(Completed)
    else if name == "cancelled" then Some(Cancelled)
    else None
  }

  /** Every status is accepted under its own name, so the enum holds exactly the four names. */
  lemma StatusNamesAccepted(s: Status)
    ensures ParseStatus(StatusName(s)) == Some(s)
  {
  }

  /** A medicine entry of the consultation details, as submitted. */
  datatype MedicineDoc = MedicineDoc(name: Option<string>, dosage: Option<string>,
                                     frequency: Option<string>, duration: Option<string>)

  datatype DetailsDoc = DetailsDoc(notes: Option<string>, medicines: seq<MedicineDoc>,
                                   suggestions: Option<string>)

  /** A field with a default, as handed to the model: left out (`undefined`),
      an explicit `null`, or a value. Mongoose applies the default only to a
      field that is left out. */
  datatype Field<+T> = Absent | Null | Given(value: T)

  /** The stored value of a field whose default is `null`. */
  function OrNull<T>(f: Field<T>): (r: Option<T>)
    ensures r.Some? <==> f.Given?
    ensures r.Some? ==> r.value == f.value
  {
    match f
    case Given(v) => Some(v)
    case _ => None
  }

  /** An appointment document as handed to the model. For a required field
      `None` covers both `undefined` and an explicit `null`, which `required`
      refuses alike; a field with a default distinguishes the two. */
  datatype AppointmentDoc = AppointmentDoc(
    doctorId: Option<DoctorId>,
    patientId: Field<PatientId>,
    appointmentDate: Option<int>,
    appointmentTime: Option<string>,
    status: Field<string>,
    appointmentType: Field<string>,
    price: Field<real>,
    consultationDetails: Option<DetailsDoc>)

  datatype Medicine = Medicine(name: string, dosage: Option<string>,
                               frequency: Option<string>, duration: Option<string>)

  datatype Details = Details(notes: Option<string>, medicines: seq<Medicine>,
                             suggestions: Option<string>)

  /** A stored appointment slot; `appointmentDate` is the slot's day in
      milliseconds since the epoch, `appointmentTime` its "HH:MM" label, and a
      `status` of `None` is a stored `null`. */
  datatype Appointment = Appointment(
    doctorId: DoctorId,
    patientId: Option<PatientId>,
    appointmentDate: int,
    appointmentTime: string,
    status: Option<Status>,
    appointmentType: Option<string>,
    price: Option<real>,
    consultationDetails: Option<Details>)

  datatype Violation =
    | DoctorIdRequired
    | AppointmentDateRequired
    | AppointmentTimeRequired
    | StatusNotInEnum
    | MedicineNameRequired(index: nat)

  /** Mongoose's `required` on a string field also refuses the empty string. */
  predicate RequiredString(v: Option<string>) {
    v.Some? && v.value != ""
  }

  /** The enum validator lets `undefined` and `null` through and checks only a given string. */
  predicate StatusAccepted(v: Field<string>) {
    !v.Given? || ParseStatus(v.value).Some?
  }

  predicate MedicinesNamed(d: Option<DetailsDoc>) {
    d.None? || forall i :: 0 <= i < |d.value.medicines| ==> RequiredString(d.value.medicines[i].name)
  }

  function MedicineViolations(ms: seq<MedicineDoc>, from: nat): (r: seq<Violation>)
    ensures r == [] <==> forall i :: 0 <= i < |ms| ==> RequiredString(ms[i].name)
    decreases |ms|
  {
    if ms == [] then []
    else
      (if RequiredString(ms[0].name) then [] else [MedicineNameRequired(from)])
      + MedicineViolations(ms[1..], from + 1)
  }

  /** Every validation error of a document, in field order. */
  function Violations(doc: AppointmentDoc): (r: seq<Violation>)
    ensures r == [] <==>
      && doc.doctorId.Some?
      && doc.appointmentDate.Some?
      && RequiredString(doc.appointmentTime)
      && StatusAccepted(doc.status)
      && MedicinesNamed(doc.consultationDetails)
  {
    (if doc.doctorId.Some? then [] else [DoctorIdRequired])
    + (if doc.appointmentDate.Some? then [] else [AppointmentDateRequired])
    + (if RequiredString(doc.appointmentTime) then [] else [AppointmentTimeRequired])
    + (if StatusAccepted(doc.status) then [] else [StatusNotInEnum])
    + (if doc.consultationDetails.Some? then MedicineViolations(doc.consultationDetails.value.medicines, 0) else [])
  }

  function ToMedicine(m: MedicineDoc): Medicine
    requires m.name.Some?
  {
    Medicine(m.name.value, m.dosage, m.frequency, m.duration)
  }

  function ToDetails(d: DetailsDoc): (r: Details)
    requires forall i :: 0 <= i < |d.medicines| ==> RequiredString(d.medicines[i].name)
    ensures |r.medicines| == |d.medicines|
  {
    Details(d.notes, seq(|d.medicines|, i requires 0 <= i < |d.medicines| && RequiredString(d.medicines[i].name) => ToMedicine(d.medicines[i])), d.suggestions)
  }

  /** Validation and defaults applied when a document is created: it is refused
      with its violations, or stored with a left-out `status` defaulting to
      `available` and left-out `patientId`, `appointmentType` and `price`
      defaulting to null; an explicit `null` is kept as `null`. */
  function Create(doc: AppointmentDoc): (r: Result<Appointment, seq<Violation>>)
    ensures r.Success? <==> Violations(doc) == []
    ensures r.Failure? ==> r.error == Violations(doc) && r.error != []
    ensures r.Success? ==>
      && r.value.doctorId == doc.doctorId.value
      && r.value.appointmentDate == doc.appointmentDate.value
      && r.value.appointmentTime == doc.appointmentTime.value
      && r.value.appointmentTime != ""
      && (doc.patientId.Given? ==> r.value.patientId == Some(doc.patientId.value))
      && (!doc.patientId.Given? ==> r.value.patientId == None)
      && (doc.appointmentType.Given? ==> r.value.appointmentType == Some(doc.appointmentType.value))
      && (!doc.appointmentType.Given? ==> r.value.appointmentType == None)
      && (doc.price.Given? ==> r.value.price == Some(doc.price.value))
      && (!doc.price.Given? ==> r.value.price == None)
      && (doc.status.Absent? ==> r.value.status == Some(Available))
      && (doc.status.Null? ==> r.value.status == None)
      && (doc.status.Given? ==> r.value.status.Some? && StatusName(r.value.status.value) == doc.status.value)
  {
    if Violations(doc) != [] then Failure(Violations(doc))
    else
      var status := match doc.status
        case Absent => Some(Available)
        case Null => None
        case Given(name) => ParseStatus(name);
      var details := if doc.consultationDetails.None? then None else Some(ToDetails(doc.consultationDetails.value));
      Success(Appointment(doc.doctorId.value, OrNull(doc.patientId), doc.appointmentDate.value,
                          doc.appointmentTime.value, status, OrNull(doc.appointmentType), OrNull(doc.price), details))
  }

  /** A document that gives only the three required fields becomes an available
      slot with no patient, no type and no price. */
  lemma NewSlotDefaults(doctor: DoctorId, date: int, time: string)
    requires time != ""
    ensures Create(AppointmentDoc(Some(doctor), Absent, Some(date), Some(time), Absent, Absent, Absent, None))
         == Success(Appointment(doctor, None, date, time, Some(Available), None, None, None))
  {
  }

  /** The status default is for a left-out status only: the same document with
      an explicit `status: null` is stored with a null status, not `available`. */
  lemma NullStatusIsNotDefaulted(doctor: DoctorId, date: int, time: string)
    requires time != ""
    ensures Create(AppointmentDoc(Some(doctor), Absent, Some(date), Some(time), Null, Absent, Absent, None))
         == Success(Appointment(doctor, None, date, time, None, None, None, None))
    ensures Create(AppointmentDoc(Some(doctor), Absent, Some(date), Some(time), Null, Absent, Absent, None))
         != Create(AppointmentDoc(Some(doctor), Absent, Some(date), Some(time), Absent, Absent, Absent, None))
  {
  }

  /** Leaving out any required field, or a medicine name, refuses the document. */
  lemma RequiredFieldsEnforced(doc: AppointmentDoc)
    requires doc.doctorId.None? || doc.appointmentDate.None? || doc.appointmentTime.None?
          || (doc.consultationDetails.Some?
              && exists i :: 0 <= i < |doc.consultationDetails.value.medicines|
                             && doc.consultationDetails.value.medicines[i].name.None?)
    ensures Create(doc).Failure?
  {
  }
}

=== FILE: appointments_tab.dfy ===
/** The doctor's appointment tables (doctor/src/components/Appointments.jsx):
    which action a row's button arms, and what confirming the dialog does. The
    server calls are reduced to the request issued and whether it succeeded;
    the refresh is the list that is fetched again. */
module AppointmentsTab {
  import opened Wrappers

  type AppointmentId = string

  /** The two tables: booked appointments and open slots. */
  datatype Tab = ConfirmedTab | AvailableTab

  /** The armed action; `NoAction` is the initial empty `actionType`. */
  datatype ActionType = NoAction | Cancel | Delete

  /** The dialog state: the selected appointment, the armed action, whether the dialog is open. */
  datatype DialogState = DialogState(selected: Option<AppointmentId>, action: ActionType, open: bool)

  datatype Request = NoRequest | CancelRequest(id: AppointmentId) | DeleteRequest(id: AppointmentId)

  /** What confirming the dialog leads to: the request sent, the table fetched
      again afterwards (if any) and the dialog state left behind. */
  datatype Effect = Effect(request: Request, refresh: Option<Tab>, after: DialogState)

  /** The button of a row arms `cancel` in the confirmed table and `delete` in any other. */
  function ActionFor(tab: Tab): (a: ActionType)
    ensures a != NoAction
    ensures a == Cancel <==> tab == ConfirmedTab
  {
    if tab == ConfirmedTab then Cancel else Delete
  }

  /** Clicking a row's button selects the row, arms the table's action and opens the dialog. */
  function SelectRow(tab: Tab, id: AppointmentId): (s: DialogState)
    ensures s.selected == Some(id) && s.open
  {
    DialogState(Some(id), ActionFor(tab), true)
  }

  /** The table a successful action fetches again. */
  function RefreshedBy(a: ActionType): Option<Tab> {
    match a
    case Cancel => Some(ConfirmedTab)
    case Delete => Some(AvailableTab)
    case NoAction => None
  }

  /** `handleAction`: with nothing selected nothing happens. Otherwise the armed
      request is sent; if it fails the dialog stays as it was, and if it succeeds
      the matching table is fetched again and the dialog is closed and cleared. */
  function HandleAction(s: DialogState, requestOk: bool): (e: Effect)
    ensures s.selected.None? ==> e == Effect(NoRequest, None, s)
    ensures e.request.CancelRequest? <==> s.selected.Some? && s.action == Cancel
    ensures e.request.DeleteRequest? <==> s.selected.Some? && s.action == Delete
    ensures e.request != NoRequest ==> e.request.id == s.selected.value
    ensures e.refresh.Some? ==> e.refresh == RefreshedBy(s.action) && requestOk
    ensures e.after != s ==> e.after == DialogState(None, s.action, false)
    ensures s.selected.Some? && s.action != NoAction && requestOk ==>
      e.refresh == RefreshedBy(s.action) && e.after == DialogState(None, s.action, false)
    ensures s.selected.Some? && s.action != NoAction && !requestOk ==>
      e.refresh.None? && e.after == s
    ensures s.selected.Some? && s.action == NoAction ==>
      e == Effect(NoRequest, None, DialogState(None, NoAction, false))
  {
    if s.selected.None? then Effect(NoRequest, None, s)
    else
      var id := s.selected.value;
      var closed := DialogState(None, s.action, false);
      match s.action
      case Cancel => if requestOk then Effect(CancelRequest(id), Some(ConfirmedTab), closed) else Effect(CancelRequest(id), None, s)
      case Delete => if requestOk then Effect(DeleteRequest(id), Some(AvailableTab), closed) else Effect(DeleteRequest(id), None, s)
      case NoAction => Effect(NoRequest, None, closed)
  }

  /** Selecting a row and confirming sends the table's own request for that
      row: a successful one refreshes exactly the table the row came from and
      closes the dialog; a failed one refreshes nothing and leaves the dialog open
      on the same row. */
  lemma ConfirmActsOnSelectedRow(tab: Tab, id: AppointmentId, requestOk: bool)
    ensures var e := HandleAction(SelectRow(tab, id), requestOk);
      && (tab == ConfirmedTab ==> e.request == CancelRequest(id))
      && (tab == AvailableTab ==> e.request == DeleteRequest(id))
      && (requestOk ==> e.refresh == Some(tab) && !e.after.open && e.after.selected.None?)
      && (!requestOk ==> e.refresh.None? && e.after == SelectRow(tab, id))
  {
  }
}

=== FILE: doctor_search.dfy ===
/** The patient's doctor search (patient/src/pages/BookAppointmentPage.jsx):
    the sort-column toggle, the comparator handed to `Array.prototype.sort`,
    the sorted list it yields (a stable sort, as the language guarantees), and
    the page of that list that is shown. */
module DoctorSearch {
  import opened Wrappers
  import opened Pagination
  import opened Numbers

  datatype Doctor = Doctor(id: string, name: string, specialties: seq<string>, experience: int)

  /** The three sortable columns. */
  datatype SortKey = ByName | BySpecialties | ByExperience

  datatype Direction = Asc | Desc

  /** `sortConfig`; no key until a column header is clicked. */
  datatype SortConfig = SortConfig(key: Option<SortKey>, direction: Direction)

  const InitialSort: SortConfig := SortConfig(None, Asc)

  /** `handleSort`: a click on the column already sorted ascending turns it
      descending; any other click sorts the clicked column ascending. */
  function HandleSort(current: SortConfig, key: SortKey): (next: SortConfig)
    ensures next.key == Some(key)
    ensures current.key != Some(key) ==> next.direction == Asc
  {
    SortConfig(Some(key), if current.key == Some(key) && current.direction == Asc then Desc else Asc)
  }

  /** Clicking the same header again always reverses the direction just set, so
      repeated clicks alternate ascending and descending. */
  lemma SecondClickReverses(current: SortConfig, key: SortKey)
    ensures var once := HandleSort(current, key);
      && HandleSort(once, key).key == once.key
      && HandleSort(once, key).direction != once.direction
      && HandleSort(HandleSort(once, key), key) == once
  {
  }

  /** JavaScript's `<` on strings, taken as character order, a proper prefix first. */
  predicate LexLess(a: string, b: string) {
    if a == [] then b != []
    else if b == [] then false
    else if a[0] != b[0] then a[0] < b[0]
    else LexLess(a[1..], b[1..])
  }

  lemma {:induction false} LexIrreflexive(a: string)
    ensures !LexLess(a, a)
  {
    if a != [] {
      LexIrreflexive(a[1..]);
    }
  }

  lemma {:induction false} LexTransitive(a: string, b: string, c: string)
    requires LexLess(a, b) && LexLess(b, c)
    ensures LexLess(a, c)
  {
    if a != [] && b != [] && c != [] && a[0] == b[0] && b[0] == c[0] {
      LexTransitive(a[1..], b[1..], c[1..]);
    }
  }

  /** Two different strings are ordered one way or the other, never both. */
  lemma {:induction false} LexTotal(a: string, b: string)
    ensures a != b <==> LexLess(a, b) || LexLess(b, a)
    ensures !(LexLess(a, b) && LexLess(b, a))
  {
    if a != [] && b != [] && a[0] == b[0] {
      LexTotal(a[1..], b[1..]);
      assert a == [a[0]] + a[1..] && b == [b[0]] + b[1..];
    } else if a == b {
      LexIrreflexive(a);
    }
  }

  /** The value a column compares: a string for name and specialties, a number for experience. */
  datatype KeyValue = Text(s: string) | Count(n: int)

  /** Sorting by specialties compares the first specialty, or `""` when there is none. */
  function FirstSpecialty(d: Doctor): (s: string)
    ensures |d.specialties| > 0 ==> s == d.specialties[0]
    ensures |d.specialties| == 0 ==> s == ""
  {
    if |d.specialties| > 0 then d.specialties[0] else ""
  }

  function KeyOf(key: SortKey, d: Doctor): (v: KeyValue)
    ensures v.Count? <==> key == ByExperience
  {
    match key
    case ByName => Text(d.name)
    case BySpecialties => Text(FirstSpecialty(d))
    case ByExperience => Count(d.experience)
  }

  /** `aField < bField` for two values of one column. */
  predicate KeyLess(x: KeyValue, y: KeyValue) {
    match (x, y)
    case (Text(a), Text(b)) => LexLess(a, b)
    case (Count(a), Count(b)) => a < b
    case _ => false
  }

  predicate FieldLess(key: SortKey, a: Doctor, b: Doctor) {
    KeyLess(KeyOf(key, a), KeyOf(key, b))
  }

  /** On one column `<` is a strict order in which incomparable means equal. */
  lemma FieldLessOrder(key: SortKey, a: Doctor, b: Doctor, c: Doctor)
    ensures !FieldLess(key, a, a)
    ensures !(FieldLess(key, a, b) && FieldLess(key, b, a))
    ensures FieldLess(key, a, b) && FieldLess(key, b, c) ==> FieldLess(key, a, c)
    ensures !FieldLess(key, a, b) && !FieldLess(key, b, a) ==> KeyOf(key, a) == KeyOf(key, b)
  {
    var x, y, z := KeyOf(key, a), KeyOf(key, b), KeyOf(key, c);
    if key != ByExperience {
      LexIrreflexive(x.s);
      LexTotal(x.s, y.s);
      if LexLess(x.s, y.s) && LexLess(y.s, z.s) {
        LexTransitive(x.s, y.s, z.s);
      }
    }
  }

  /** The comparator of lines 91-108: -1, 1 or 0, reversed when descending. */
  function Compare(key: SortKey, dir: Direction, a: Doctor, b: Doctor): (r: int)
    ensures r == -1 || r == 0 || r == 1
    ensures r == 0 <==> KeyOf(key, a) == KeyOf(key, b)
  {
    FieldLessOrder(key, a, b, b);
    if FieldLess(key, a, b) then (if dir == Asc then -1 else 1)
    else if FieldLess(key, b, a) then (if dir == Asc then 1 else -1)
    else 0
  }

  /** `a` may stand before `b`. */
  predicate Le(key: SortKey, dir: Direction, a: Doctor, b: Doctor) {
    Compare(key, dir, a, b) <= 0
  }

  /** The comparator is consistent: any two doctors are ordered one way or the
      other, the order is transitive, and `Compare(a, b) >= 0` puts `b` first. */
  lemma LeTotalPreorder(key: SortKey, dir: Direction, a: Doctor, b: Doctor, c: Doctor)
    ensures Le(key, dir, a, b) || Le(key, dir, b, a)
    ensures Compare(key, dir, a, b) >= 0 ==> Le(key, dir, b, a)
    ensures Le(key, dir, a, b) && Le(key, dir, b, c) ==> Le(key, dir, a, c)
  {
    FieldLessOrder(key, a, b, c);
    FieldLessOrder(key, b, c, a);
    FieldLessOrder(key, c, a, b);
    FieldLessOrder(key, a, c, b);
    FieldLessOrder(key, b, a, c);
    FieldLessOrder(key, c, b, a);
  }

  predicate SortedBy(key: SortKey, dir: Direction, s: seq<Doctor>) {
    forall i, j :: 0 <= i < j < |s| ==> Le(key, dir, s[i], s[j])
  }

  /** Puts `x` after every element that is not greater than it and before the
      first one that is. */
  function Insert(key: SortKey, dir: Direction, x: Doctor, s: seq<Doctor>): (r: seq<Doctor>)
    ensures multiset(r) == multiset(s) + multiset{x}
    ensures |r| == |s| + 1
  {
    if s == [] then [x]
    else if Compare(key, dir, x, s[0]) < 0 then [x] + s
    else
      assert s == [s[0]] + s[1..];
      [s[0]] + Insert(key, dir, x, s[1..])
  }

  lemma {:induction false} InsertSorted(key: SortKey, dir: Direction, x: Doctor, s: seq<Doctor>)
    requires SortedBy(key, dir, s)
    ensures SortedBy(key, dir, Insert(key, dir, x, s))
  {
    if s != [] {
      if Compare(key, dir, x, s[0]) < 0 {
        forall y | y in multiset(s)
          ensures Le(key, dir, x, y)
        {
          HeadFirst(key, dir, s, y);
          LeTotalPreorder(key, dir, x, s[0], y);
        }
        ConsSorted(key, dir, x, s);
      } else {
        InsertSorted(key, dir, x, s[1..]);
        LeTotalPreorder(key, dir, x, s[0], x);
        forall y | y in multiset(Insert(key, dir, x, s[1..]))
          ensures Le(key, dir, s[0], y)
        {
          if y != x {
            assert s == [s[0]] + s[1..];
            HeadFirst(key, dir, s, y);
          }
        }
        ConsSorted(key, dir, s[0], Insert(key, dir, x, s[1..]));
      }
    }
  }

  /** The head of a sorted list may stand before any of its elements. */
  lemma HeadFirst(key: SortKey, dir: Direction, s: seq<Doctor>, y: Doctor)
    requires SortedBy(key, dir, s) && s != [] && y in multiset(s)
    ensures Le(key, dir, s[0], y)
  {
    var k :| 0 <= k < |s| && s[k] == y;
    if k == 0 {
      LeTotalPreorder(key, dir, y, y, y);
    }
  }

  /** A sorted list stays sorted behind an element that may stand before all of it. */
  lemma ConsSorted(key: SortKey, dir: Direction, h: Doctor, s: seq<Doctor>)
    requires SortedBy(key, dir, s)
    requires forall y :: y in multiset(s) ==> Le(key, dir, h, y)
    ensures SortedBy(key, dir, [h] + s)
  {
    var r := [h] + s;
    forall i, j | 0 <= i < j < |r|
      ensures Le(key, dir, r[i], r[j])
    {
      assert r[j] == s[j - 1] && s[j - 1] in multiset(s);
      if i > 0 {
        assert r[i] == s[i - 1];
      }
    }
  }

  /** The stable sort: each doctor is inserted, in list order, behind the ones
      already placed that it does not precede. */
  function SortBy(key: SortKey, dir: Direction, xs: seq<Doctor>): (r: seq<Doctor>)
    ensures multiset(r) == multiset(xs)
    ensures |r| == |xs|
  {
    if xs == [] then []
    else
      assert xs == xs[..|xs| - 1] + [xs[|xs| - 1]];
      Insert(key, dir, xs[|xs| - 1], SortBy(key, dir, xs[..|xs| - 1]))
  }

  lemma {:induction false} SortBySorted(key: SortKey, dir: Direction, xs: seq<Doctor>)
    ensures SortedBy(key, dir, SortBy(key, dir, xs))
  {
    if xs != [] {
      SortBySorted(key, dir, xs[..|xs| - 1]);
      InsertSorted(key, dir, xs[|xs| - 1], SortBy(key, dir, xs[..|xs| - 1]));
    }
  }

  /** `sortedDoctors`: an empty list stays empty, no sort key keeps the order
      received, and otherwise the list is sorted on the key in the direction. */
  function SortedDoctors(doctors: seq<Doctor>, config: SortConfig): (r: seq<Doctor>)
    ensures multiset(r) == multiset(doctors)
    ensures config.key.None? ==> r == doctors
  {
    if doctors == [] then []
    else if config.key.None? then doctors
    else SortBy(config.key.value, config.direction, doctors)
  }

  /** With a key, the list shown is a permutation of the doctors that is
      nondecreasing on the key when ascending and nonincreasing when descending. */
  lemma SortedDoctorsOrdered(doctors: seq<Doctor>, config: SortConfig)
    requires config.key.Some?
    ensures var r := SortedDoctors(doctors, config);
      && multiset(r) == multiset(doctors)
      && (config.direction == Asc ==>
            forall i, j :: 0 <= i < j < |r| ==> !FieldLess(config.key.value, r[j], r[i]))
      && (config.direction == Desc ==>
            forall i, j :: 0 <= i < j < |r| ==> !FieldLess(config.key.value, r[i], r[j]))
  {
    var key := config.key.value;
    var r := SortedDoctors(doctors, config);
    SortBySorted(key, config.direction, doctors);
    forall i, j | 0 <= i < j < |r|
      ensures config.direction == Asc ==> !FieldLess(key, r[j], r[i])
      ensures config.direction == Desc ==> !FieldLess(key, r[i], r[j])
    {
      FieldLessOrder(key, r[i], r[j], r[j]);
    }
  }

  /** What the page shows: the doctors last received, the sort, the current page. */
  datatype View = View(doctors: seq<Doctor>, sort: SortConfig, page: int)

  /** `totalPages`. */
  function TotalPages(v: View): nat {
    PageCount(|SortedDoctors(v.doctors, v.sort)|)
  }

  /** `paginatedDoctors`. */
  function Shown(v: View): (r: seq<Doctor>)
    ensures |r| <= ItemsPerPage
  {
    PageItems(SortedDoctors(v.doctors, v.sort), v.page)
  }

  /** The outcome of the search request: a reply with its `success` flag and its
      `doctors` (absent when the field is missing), or a failed call. */
  datatype SearchReply = Replied(success: bool, doctors: Option<seq<Doctor>>) | CallFailed

  /** `searchDoctors`: the page goes back to 1, and the list becomes the reply's
      doctors on success and empty otherwise; the sort is kept. */
  function AfterSearch(v: View, reply: SearchReply): (w: View)
    ensures w.page == 1 && w.sort == v.sort
    ensures !(reply.Replied? && reply.success) ==> w.doctors == []
  {
    var found := if reply.Replied? && reply.success then reply.doctors.GetOr([]) else [];
    View(found, v.sort, 1)
  }

  /** After any search the first page is shown: the first (up to) ten doctors of
      the sorted result, and the page is in range whenever there is a result. */
  lemma SearchShowsFirstPage(v: View, reply: SearchReply)
    ensures var w := AfterSearch(v, reply);
      var sorted := SortedDoctors(w.doctors, w.sort);
      && Shown(w) == sorted[..Min(ItemsPerPage, |sorted|)]
      && (|sorted| > 0 ==> 1 <= w.page <= TotalPages(w))
  {
    var w := AfterSearch(v, reply);
    PageItemsAreWindow(SortedDoctors(w.doctors, w.sort), 1);
  }
}

=== FILE: lab_dash.dfy ===
/** The lab assistant's dashboard (doctor/src/labAssistant/LabDash.jsx): the
    paged list of test requests, the per-test result entry fields, and the
    results list sent when a request is completed. */
module LabDash {
  import opened Wrappers
  import opened Pagination
  import opened Numbers

  /** What has been typed for one test; a field never touched is absent. */
  datatype Entry = Entry(result: Option<string>, referenceRange: Option<string>,
                         remarks: Option<string>, isCritical: Option<bool>)

  const Untouched: Entry := Entry(None, None, None, None)

  /** The entry fields the dialog edits. */
  datatype Field = ResultField | ReferenceRangeField | RemarksField

  /** `testResults`: the entries by test name. */
  type Results = map<string, Entry>

  function SetField(e: Entry, field: Field, value: string): Entry {
    match field
    case ResultField => e.(result := Some(value))
    case ReferenceRangeField => e.(referenceRange := Some(value))
    case RemarksField => e.(remarks := Some(value))
  }

  function FieldOf(e: Entry, field: Field): Option<string> {
    match field
    case ResultField => e.result
    case ReferenceRangeField => e.referenceRange
    case RemarksField => e.remarks
  }

  /** `handleInputChange`: the named field of the named test takes the typed
      value (a test with no entry yet gets one holding just that field); every
      other field and every other test keeps its entry. */
  function HandleInputChange(results: Results, testName: string, field: Field, value: string): (r: Results)
    ensures r.Keys == results.Keys + {testName}
    ensures FieldOf(r[testName], field) == Some(value)
    ensures forall f :: f != field ==>
      FieldOf(r[testName], f) == (if testName in results then FieldOf(results[testName], f) else None)
    ensures r[testName].isCritical == (if testName in results then results[testName].isCritical else None)
    ensures forall t :: t in results && t != testName ==> r[t] == results[t]
  {
    var previous := if testName in results then results[testName] else Untouched;
    results[testName := SetField(previous, field, value)]
  }

  /** Typing into one field and then another test's field commutes: the two
      edits touch different entries. */
  lemma EditsOfDifferentTestsCommute(results: Results, a: string, fa: Field, va: string,
                                     b: string, fb: Field, vb: string)
    requires a != b
    ensures HandleInputChange(HandleInputChange(results, a, fa, va), b, fb, vb)
         == HandleInputChange(HandleInputChange(results, b, fb, vb), a, fa, va)
  {
  }

  /** One line of the submitted results. */
  datatype FormattedResult = FormattedResult(testName: string, result: string, referenceRange: string,
                                             remarks: string, isCritical: bool)

  /** `formattedResults`: one line per requested test, in order, with what was
      typed for it; anything missing is `''`, and `isCritical` is false unless set. */
  function FormattedResults(testNames: seq<string>, results: Results): (r: seq<FormattedResult>)
    ensures |r| == |testNames|
    ensures forall i :: 0 <= i < |testNames| ==> r[i].testName == testNames[i]
  {
    seq(|testNames|, i requires 0 <= i < |testNames| =>
      var e := if testNames[i] in results then results[testNames[i]] else Untouched;
      FormattedResult(testNames[i], e.result.GetOr(""), e.referenceRange.GetOr(""),
                      e.remarks.GetOr(""), e.isCritical.GetOr(false)))
  }

  /** The text a submitted line carries for one edited field. */
  function LineField(line: FormattedResult, field: Field): string {
    match field
    case ResultField => line.result
    case ReferenceRangeField => line.referenceRange
    case RemarksField => line.remarks
  }

  /** Each line reports exactly what was typed for its test: a typed field as
      typed, a field never typed as blank, and the test as critical only when it
      was marked so; a test never touched is blank and not critical. */
  lemma FormattedResultsCarryEntries(testNames: seq<string>, results: Results, i: nat)
    requires i < |testNames|
    ensures var line := FormattedResults(testNames, results)[i];
      && (testNames[i] !in results ==> line == FormattedResult(testNames[i], "", "", "", false))
      && (testNames[i] in results ==>
            var e := results[testNames[i]];
            && (forall f :: FieldOf(e, f).Some? ==> LineField(line, f) == FieldOf(e, f).value)
            && (forall f :: FieldOf(e, f).None? ==> LineField(line, f) == "")
            && (line.isCritical <==> e.isCritical == Some(true)))
  {
  }

  /** `totalPages`: at least one page even with no requests or a non-list reply. */
  function TotalPages<T>(requests: Option<seq<T>>): (pages: nat)
    ensures pages >= 1
    ensures requests.Some? && |requests.value| > 0 ==> pages == PageCount(|requests.value|)
  {
    var n := if requests.Some? then |requests.value| else 0;
    Max(1, PageCount(n))
  }

  /** `currentRequests`: the slice from `(p - 1)·10` of ten items, or nothing
      when the reply was not a list. */
  function CurrentRequests<T>(requests: Option<seq<T>>, page: int): (r: seq<T>)
    ensures |r| <= ItemsPerPage
    ensures requests.None? ==> r == []
    ensures requests.Some? ==> r == PageItems(requests.value, page)
  {
    if requests.None? then []
    else
      var start := (page - 1) * ItemsPerPage;
      JsSlice(requests.value, start, start + ItemsPerPage)
  }

  /** The controls are drawn only when there are more than ten requests. */
  predicate LabControlsShown<T>(requests: Option<seq<T>>) {
    requests.Some? && |requests.value| > ItemsPerPage
  }

  /** Previous is disabled on page 1; Next on the last page or an empty one. */
  predicate PreviousEnabled(page: int) {
    page != 1
  }

  predicate NextEnabled<T>(requests: Option<seq<T>>, page: int) {
    page != TotalPages(requests) && CurrentRequests(requests, page) != []
  }

  /** From any page in range, the enabled buttons lead to a page in range:
      Previous is enabled exactly above page 1 and Next exactly below the last. */
  lemma LabPagerStaysInRange<T>(requests: Option<seq<T>>, page: int)
    requires LabControlsShown(requests) && 1 <= page <= TotalPages(requests)
    ensures PreviousEnabled(page) <==> page > 1
    ensures NextEnabled(requests, page) <==> page < TotalPages(requests)
    ensures PreviousEnabled(page) ==> 1 <= page - 1 <= TotalPages(requests)
    ensures NextEnabled(requests, page) ==> 1 <= page + 1 <= TotalPages(requests)
  {
    PageNonEmptyIffInRange(requests.value, page);
  }
}

=== FILE: lab_records.dfy ===
/** The patient's lab records page (patient/src/pages/LabRecords.jsx): the
    records split into pending and completed by their status, and what an
    expanded record shows. */
module LabRecords {
  import opened ListOps

  datatype TestResult = TestResult(testName: string, result: string, referenceRange: string,
                                   remarks: string, isCritical: bool)

  datatype LabRecord = LabRecord(id: string, status: string, tests: seq<TestResult>)

  predicate IsCompleted(r: LabRecord) {
    r.status == "completed"
  }

  /** `records.filter(record => record.status !== 'completed')`. */
  function PendingRecords(records: seq<LabRecord>): (r: seq<LabRecord>)
    ensures forall x :: x in r <==> x in records && !IsCompleted(x)
  {
    Filter(records, x => !IsCompleted(x))
  }

  /** `records.filter(record => record.status === 'completed')`. */
  function CompletedRecords(records: seq<LabRecord>): (r: seq<LabRecord>)
    ensures forall x :: x in r <==> x in records && IsCompleted(x)
  {
    Filter(records, IsCompleted)
  }

  /** The two lists split the records: each record is in exactly one of them,
      both keep the records' order, their lengths add up, and together they
      hold every record exactly as often as the full list. */
  lemma PendingCompletedPartition(records: seq<LabRecord>)
    ensures |PendingRecords(records)| + |CompletedRecords(records)| == |records|
    ensures multiset(PendingRecords(records)) + multiset(CompletedRecords(records)) == multiset(records)
    ensures SubsequenceOf(PendingRecords(records), records)
    ensures SubsequenceOf(CompletedRecords(records), records)
    ensures forall x :: x in records ==> (x in PendingRecords(records) <==> x !in CompletedRecords(records))
  {
    FilterPartition(records, IsCompleted, x => !IsCompleted(x));
    FilterIsSubsequence(records, x => !IsCompleted(x));
    FilterIsSubsequence(records, IsCompleted);
  }

  /** The body of an expanded record card. */
  datatype ExpandedBody = TestCards(tests: seq<TestResult>) | ResultsPending

  /** A completed record shows one card per test; any other shows "Results pending". */
  function Expanded(r: LabRecord): (b: ExpandedBody)
    ensures b.TestCards? <==> IsCompleted(r)
    ensures b.TestCards? ==> b.tests == r.tests
  {
    if r.status == "completed" then TestCards(r.tests) else ResultsPending
  }

  /** Results are shown for exactly the records in the completed list. */
  lemma ResultsShownOnlyWhenCompleted(records: seq<LabRecord>, x: LabRecord)
    requires x in records
    ensures Expanded(x).TestCards? <==> x in CompletedRecords(records)
    ensures Expanded(x) == ResultsPending <==> x in PendingRecords(records)
  {
  }
}

=== FILE: list_ops.dfy ===
/** `Array.prototype.filter` and the facts about it that several front-end
    lists rely on: membership, order preservation and partition. */
module ListOps {

  /** `xs.filter(keep)`. */
  function Filter<T(!new)>(xs: seq<T>, keep: T -> bool): (r: seq<T>)
    ensures |r| <= |xs|
    ensures forall x :: x in r <==> x in xs && keep(x)
  {
    if xs == [] then [] else (if keep(xs[0]) then [xs[0]] else []) + Filter(xs[1..], keep)
  }

  /** `a` is `b` with some elements dropped and the rest kept in order. */
  predicate SubsequenceOf<T(==)>(a: seq<T>, b: seq<T>)
    decreases |b|
  {
    if a == [] then true
    else if b == [] then false
    else if a[0] == b[0] then SubsequenceOf(a[1..], b[1..])
    else SubsequenceOf(a, b[1..])
  }

  /** Filtering keeps the surviving elements in their original relative order. */
  lemma {:induction false} FilterIsSubsequence<T(!new)>(xs: seq<T>, keep: T -> bool)
    ensures SubsequenceOf(Filter(xs, keep), xs)
  {
    if xs != [] {
      FilterIsSubsequence(xs[1..], keep);
      var rest := Filter(xs[1..], keep);
      if keep(xs[0]) {
        assert Filter(xs, keep) == [xs[0]] + rest;
        assert ([xs[0]] + rest)[1..] == rest;
      } else {
        assert Filter(xs, keep) == rest;
        assert rest == [] || rest[0] != xs[0] by {
          if rest != [] {
            assert rest[0] in rest;
          }
        }
      }
    }
  }

  /** A filter and its complement split the list: their sizes add up and together
      they hold every element exactly as often as the list does. */
  lemma FilterPartition<T(!new)>(xs: seq<T>, keep: T -> bool, drop: T -> bool)
    requires forall x :: drop(x) == !keep(x)
    ensures |Filter(xs, keep)| + |Filter(xs, drop)| == |xs|
    ensures multiset(Filter(xs, keep)) + multiset(Filter(xs, drop)) == multiset(xs)
  {
    var kept, dropped := multiset(Filter(xs, keep)), multiset(Filter(xs, drop));
    forall x
      ensures (kept + dropped)[x] == multiset(xs)[x]
    {
      FilterMultiplicity(xs, keep, x);
      FilterMultiplicity(xs, drop, x);
    }
    assert kept + dropped == multiset(xs);
    assert |kept + dropped| == |multiset(xs)|;
  }

  /** `xs.filter(item => item !== v)`: drops every occurrence of `v`. */
  function RemoveAll<T(==,!new)>(xs: seq<T>, v: T): (r: seq<T>)
    ensures v !in r
    ensures forall x :: x != v ==> (x in r <==> x in xs)
    ensures v !in xs ==> r == xs
  {
    RemoveAllKeepsAbsent(xs, v);
    Filter(xs, x => x != v)
  }

  lemma {:induction false} RemoveAllKeepsAbsent<T(!new)>(xs: seq<T>, v: T)
    ensures v !in xs ==> Filter(xs, x => x != v) == xs
  {
    if xs != [] && v !in xs {
      RemoveAllKeepsAbsent(xs[1..], v);
      assert xs == [xs[0]] + xs[1..];
    }
  }

  /** No element occurs twice. */
  predicate Distinct<T(==)>(s: seq<T>) {
    forall i, j :: 0 <= i < j < |s| ==> s[i] != s[j]
  }

  /** Filtering a concatenation filters each part. */
  lemma {:induction false} FilterAppend<T(!new)>(a: seq<T>, b: seq<T>, keep: T -> bool)
    ensures Filter(a + b, keep) == Filter(a, keep) + Filter(b, keep)
  {
    if a == [] {
      assert a + b == b;
    } else {
      assert (a + b)[0] == a[0] && (a + b)[1..] == a[1..] + b;
      FilterAppend(a[1..], b, keep);
    }
  }

  /** A kept value occurs in the result as often as in the list, a dropped one never. */
  lemma {:induction false} FilterMultiplicity<T(!new)>(xs: seq<T>, keep: T -> bool, x: T)
    ensures multiset(Filter(xs, keep))[x] == if keep(x) then multiset(xs)[x] else 0
  {
    if xs != [] {
      FilterMultiplicity(xs[1..], keep, x);
      assert xs == [xs[0]] + xs[1..];
    }
  }

  /** Filtering a list without repetitions gives one without repetitions. */
  lemma {:induction false} FilterKeepsDistinct<T(!new)>(xs: seq<T>, keep: T -> bool)
    requires Distinct(xs)
    ensures Distinct(Filter(xs, keep))
  {
    if xs != [] {
      assert Distinct(xs[1..]) by {
        forall i, j | 0 <= i < j < |xs[1..]|
          ensures xs[1..][i] != xs[1..][j]
        {
          assert xs[1..][i] == xs[i + 1] && xs[1..][j] == xs[j + 1];
        }
      }
      FilterKeepsDistinct(xs[1..], keep);
      var rest := Filter(xs[1..], keep);
      if keep(xs[0]) {
        assert xs[0] !in xs[1..];
        assert xs[0] !in rest;
        var r := [xs[0]] + rest;
        forall i, j | 0 <= i < j < |r|
          ensures r[i] != r[j]
        {
          if i == 0 {
            assert r[j] in rest;
          } else {
            assert r[i] == rest[i - 1] && r[j] == rest[j - 1];
          }
        }
      }
    }
  }

  /** `RemoveAll` keeps the order of what remains, every other value as often as
      before, and a list without repeats without repeats. */
  lemma RemoveAllFacts<T(!new)>(xs: seq<T>, v: T)
    ensures SubsequenceOf(RemoveAll(xs, v), xs)
    ensures forall x :: multiset(RemoveAll(xs, v))[x] == if x != v then multiset(xs)[x] else 0
    ensures Distinct(xs) ==> Distinct(RemoveAll(xs, v))
  {
    FilterIsSubsequence(xs, x => x != v);
    forall x
      ensures multiset(RemoveAll(xs, v))[x] == if x != v then multiset(xs)[x] else 0
    {
      FilterMultiplicity(xs, y => y != v, x);
    }
    if Distinct(xs) {
      FilterKeepsDistinct(xs, x => x != v);
    }
  }

  /** Removing a value from a list with that value appended last drops the appended copy too. */
  lemma RemoveAllAppended<T(!new)>(xs: seq<T>, v: T)
    ensures RemoveAll(xs + [v], v) == RemoveAll(xs, v)
  {
    FilterAppend(xs, [v], x => x != v);
  }

  /** Growing a prefix by one element, behind a fixed front part. */
  lemma PrefixStep<T>(front: seq<T>, s: seq<T>, i: nat)
    requires i < |s|
    ensures front + s[..i + 1] == (front + s[..i]) + [s[i]]
  {
    assert s[..i + 1] == s[..i] + [s[i]];
  }
}

=== FILE: numbers.dfy ===
/** `Math.max` and `Math.min` on integers, shared by the paging and the slot arithmetic. */
module Numbers {
  function Max(a: int, b: int): int {
    if a >= b then a else b
  }

  function Min(a: int, b: int): int {
    if a <= b then a else b
  }
}

=== FILE: pagination.dfy ===
/** Client-side paging shared by the list screens: `Array.prototype.slice`,
    the page count, the items of one page and the page controls of
    doctor/src/components/Appointments.jsx and
    patient/src/pages/BookAppointmentPage.jsx (Previous, numbered links, Next). */
module Pagination {
  import opened Numbers

  /** Every list screen shows ten items a page. */
  const ItemsPerPage: nat := 10

  /** A `slice` bound resolved against the length: a negative bound counts from
      the end, and the result is clamped to `[0, len]`. */
  function SliceBound(k: int, len: nat): (b: nat)
    ensures b <= len
    ensures 0 <= k <= len ==> b == k
  {
    if k < 0 then Max(len + k, 0) else Min(k, len)
  }

  /** `xs.slice(start, end)`. */
  function JsSlice<T>(xs: seq<T>, start: int, end: int): (r: seq<T>)
    ensures |r| <= |xs|
    ensures 0 <= start <= end <= |xs| ==> r == xs[start..end]
    ensures 0 <= end <= start ==> r == []
    ensures 0 <= start <= end ==> |r| <= end - start
  {
    var from := SliceBound(start, |xs|);
    var to := SliceBound(end, |xs|);
    if from >= to then [] else xs[from..to]
  }

  /** `Math.ceil(n / k)` for a count `n`. */
  function CeilDiv(n: nat, k: nat): (r: nat)
    requires k > 0
    ensures r * k >= n
    ensures r > 0 ==> (r - 1) * k < n
  {
    if n == 0 then 0 else 1 + CeilDiv(if n >= k then n - k else 0, k)
  }

  /** `Math.ceil(n / 10)`: the number of pages of a list of `n` items. */
  function PageCount(n: nat): (pages: nat)
    ensures pages * ItemsPerPage >= n
    ensures pages == 0 <==> n == 0
    ensures pages > 0 ==> (pages - 1) * ItemsPerPage < n
  {
    CeilDiv(n, ItemsPerPage)
  }

  /** `xs.slice((page - 1) * 10, page * 10)`. */
  function PageItems<T>(xs: seq<T>, page: int): (r: seq<T>)
    ensures |r| <= ItemsPerPage
  {
    JsSlice(xs, (page - 1) * ItemsPerPage, page * ItemsPerPage)
  }

  /** Page `p` of a list holds exactly the items at positions `(p - 1)·10`
      up to, not including, `p·10` that exist. */
  lemma PageItemsAreWindow<T>(xs: seq<T>, page: int)
    requires page >= 1
    ensures var lo := Min((page - 1) * ItemsPerPage, |xs|);
      var hi := Min(page * ItemsPerPage, |xs|);
      PageItems(xs, page) == xs[lo..hi]
  {
  }

  /** A page at or after the first holds items exactly when it is not past the last page. */
  lemma PageNonEmptyIffInRange<T>(xs: seq<T>, page: int)
    requires page >= 1
    ensures PageItems(xs, page) != [] <==> page <= PageCount(|xs|)
  {
    var pages := PageCount(|xs|);
    if page <= pages {
      assert (page - 1) * ItemsPerPage <= (pages - 1) * ItemsPerPage;
    } else {
      assert (page - 1) * ItemsPerPage >= pages * ItemsPerPage;
    }
  }

  /** Pages `1..k` shown one after another. */
  function PagesThrough<T>(xs: seq<T>, k: nat): seq<T> {
    if k == 0 then [] else PagesThrough(xs, k - 1) + PageItems(xs, k)
  }

  /** Reading pages `1..k` in turn shows the first `k·10` items in order, so
      paging through all `PageCount` pages shows every item exactly once. */
  lemma {:induction false} PagesCoverList<T>(xs: seq<T>, k: nat)
    ensures PagesThrough(xs, k) == xs[..Min(k * ItemsPerPage, |xs|)]
    ensures k == PageCount(|xs|) ==> PagesThrough(xs, k) == xs
  {
    if k > 0 {
      PagesCoverList(xs, k - 1);
      PageItemsAreWindow(xs, k);
      var lo := Min((k - 1) * ItemsPerPage, |xs|);
      var hi := Min(k * ItemsPerPage, |xs|);
      assert xs[..lo] + xs[lo..hi] == xs[..hi];
    }
  }

  /** A click on the controls of Appointments.jsx or BookAppointmentPage.jsx; a
      numbered link carries its zero-based position. */
  datatype PagerClick = Previous | Next | PageLink(index: nat)

  /** The controls are drawn only when there is more than one page. */
  predicate ControlsShown(pages: int) {
    pages > 1
  }

  /** The page after a click: Previous `max(1, p - 1)`, Next `min(pages, p + 1)`,
      the link at position `i` page `i + 1`. */
  function Clicked(page: int, pages: int, click: PagerClick): (next: int)
    ensures click.Previous? ==> next >= 1 && next <= Max(page, 1)
    ensures click.Previous? && page > 1 ==> next == page - 1
    ensures click.Previous? && page <= 1 ==> next == 1
    ensures click.Next? ==> next <= pages && next >= Min(page, pages)
    ensures click.Next? && page < pages ==> next == page + 1
    ensures click.Next? && page >= pages ==> next == pages
    ensures click.PageLink? ==> next == click.index + 1
  {
    match click
    case Previous => Max(1, page - 1)
    case Next => Min(pages, page + 1)
    case PageLink(i) => i + 1
  }

  /** Starting on a valid page, every control drawn leads to a valid page:
      Previous and Next move exactly one page away from the edges and stay put
      at them, and a numbered link leads to its own page. */
  lemma ClickKeepsPageInRange(page: int, pages: int, click: PagerClick)
    requires ControlsShown(pages) && 1 <= page <= pages
    requires click.PageLink? ==> click.index < pages
    ensures 1 <= Clicked(page, pages, click) <= pages
    ensures !click.PageLink? ==> -1 <= Clicked(page, pages, click) - page <= 1
    ensures click.Previous? ==> Clicked(page, pages, click) == if page == 1 then page else page - 1
    ensures click.Next? ==> Clicked(page, pages, click) == if page == pages then page else page + 1
    ensures click.PageLink? ==> Clicked(page, pages, click) == click.index + 1
  {
  }
}

=== FILE: register_form.dfy ===
/** The doctor registration form (doctor/src/pages/RegisterPage.jsx): its
    validation, including the optional experience and age refinements, and the
    body it submits, which the backend's `registerDoctorSchema` then parses. All
    inputs are strings, as the form's text fields hold them. */
module RegisterForm {
  import opened Wrappers
  import opened Text
  import opened Schemas

  datatype RegisterValues = RegisterValues(
    name: string,
    email: string,
    password: string,
    specialties: seq<string>,
    qualifications: string,
    experience: string,
    age: string)

  datatype FormIssue = NameTooShort | PasswordUnder8 | NoSpecialty | ExperienceNegative | AgeUnder18

  /** The refinement on an optional numeric text: an empty field passes; any
      other passes only if `Number(value) >= bound` (NaN fails every comparison). */
  predicate EmptyOrAtLeast(value: string, bound: real) {
    value == "" || (JsNumber(value).Some? && JsNumber(value).value >= bound)
  }

  /** The issue list from the outcome of each check, in field order. */
  function IssueList(nameOk: bool, passwordOk: bool, specialtiesOk: bool,
                     experienceOk: bool, ageOk: bool): (r: seq<FormIssue>)
    ensures r == [] <==> nameOk && passwordOk && specialtiesOk && experienceOk && ageOk
    ensures NameTooShort in r <==> !nameOk
    ensures PasswordUnder8 in r <==> !passwordOk
    ensures NoSpecialty in r <==> !specialtiesOk
    ensures ExperienceNegative in r <==> !experienceOk
    ensures AgeUnder18 in r <==> !ageOk
  {
    IssueListMembers(nameOk, passwordOk, specialtiesOk, experienceOk, ageOk);
    Unless(nameOk, NameTooShort) + Unless(passwordOk, PasswordUnder8)
    + Unless(specialtiesOk, NoSpecialty)
    + Unless(experienceOk, ExperienceNegative) + Unless(ageOk, AgeUnder18)
  }

  /** The form checks' issues, taken one issue at a time. */
  lemma IssueListMembers(nameOk: bool, passwordOk: bool, specialtiesOk: bool,
                         experienceOk: bool, ageOk: bool)
    ensures var r := Unless(nameOk, NameTooShort) + Unless(passwordOk, PasswordUnder8)
                     + Unless(specialtiesOk, NoSpecialty)
                     + Unless(experienceOk, ExperienceNegative) + Unless(ageOk, AgeUnder18);
      && (r == [] <==> nameOk && passwordOk && specialtiesOk && experienceOk && ageOk)
      && (NameTooShort in r <==> !nameOk)
      && (PasswordUnder8 in r <==> !passwordOk)
      && (NoSpecialty in r <==> !specialtiesOk)
      && (ExperienceNegative in r <==> !experienceOk)
      && (AgeUnder18 in r <==> !ageOk)
  {
    IssueListMember(nameOk, passwordOk, specialtiesOk, experienceOk, ageOk, NameTooShort);
    IssueListMember(nameOk, passwordOk, specialtiesOk, experienceOk, ageOk, PasswordUnder8);
    IssueListMember(nameOk, passwordOk, specialtiesOk, experienceOk, ageOk, NoSpecialty);
    IssueListMember(nameOk, passwordOk, specialtiesOk, experienceOk, ageOk, ExperienceNegative);
    IssueListMember(nameOk, passwordOk, specialtiesOk, experienceOk, ageOk, AgeUnder18);
  }

  /** Whether one issue is among the form checks' issues, one check at a time. */
  lemma IssueListMember(nameOk: bool, passwordOk: bool, specialtiesOk: bool,
                        experienceOk: bool, ageOk: bool, x: FormIssue)
    ensures var r := Unless(nameOk, NameTooShort) + Unless(passwordOk, PasswordUnder8)
                     + Unless(specialtiesOk, NoSpecialty)
                     + Unless(experienceOk, ExperienceNegative) + Unless(ageOk, AgeUnder18);
      x in r <==>
        || (!nameOk && x == NameTooShort) || (!passwordOk && x == PasswordUnder8)
        || (!specialtiesOk && x == NoSpecialty)
        || (!experienceOk && x == ExperienceNegative) || (!ageOk && x == AgeUnder18)
  {
    var r1 := Unless(nameOk, NameTooShort);
    var r2 := r1 + Unless(passwordOk, PasswordUnder8);
    var r3 := r2 + Unless(specialtiesOk, NoSpecialty);
    var r4 := r3 + Unless(experienceOk, ExperienceNegative);
    InUnlessAppended(r1, passwordOk, PasswordUnder8, x);
    InUnlessAppended(r2, specialtiesOk, NoSpecialty, x);
    InUnlessAppended(r3, experienceOk, ExperienceNegative, x);
    InUnlessAppended(r4, ageOk, AgeUnder18, x);
  }

  /** Every issue the form schema reports, in field order (the e-mail format is
      not checked here). */
  function FormIssues(v: RegisterValues): (r: seq<FormIssue>)
    ensures r == [] <==>
      && |v.name| >= 2 && |v.password| >= 8 && |v.specialties| > 0
      && EmptyOrAtLeast(v.experience, 0.0) && EmptyOrAtLeast(v.age, 18.0)
    ensures NameTooShort in r <==> |v.name| < 2
    ensures PasswordUnder8 in r <==> |v.password| < 8
    ensures NoSpecialty in r <==> v.specialties == []
    ensures ExperienceNegative in r <==> !EmptyOrAtLeast(v.experience, 0.0)
    ensures AgeUnder18 in r <==> !EmptyOrAtLeast(v.age, 18.0)
  {
    IssueList(|v.name| >= 2, |v.password| >= 8, |v.specialties| > 0,
              EmptyOrAtLeast(v.experience, 0.0), EmptyOrAtLeast(v.age, 18.0))
  }

  /** `value ? Number(value) : undefined`. */
  function NumberOrUndefined(value: string): (r: Value)
    ensures r.Undefined? <==> value == ""
    ensures r.Number? ==> JsNumber(value) == Some(r.n)
  {
    if value == "" then Undefined
    else match JsNumber(value)
      case Some(n) => Number(n)
      case None => NotANumber
  }

  /** `formattedValues`: the other fields go out unchanged, age and experience
      as numbers or left out when empty. */
  function SubmittedBody(v: RegisterValues): (b: RegisterBody)
    ensures b.name == Text(v.name) && b.email == Text(v.email) && b.password == Text(v.password)
    ensures b.qualifications == Text(v.qualifications)
    ensures b.specialties.List? && |b.specialties.items| == |v.specialties|
    ensures forall i :: 0 <= i < |v.specialties| ==> b.specialties.items[i] == Text(v.specialties[i])
    ensures b.experience == NumberOrUndefined(v.experience) && b.age == NumberOrUndefined(v.age)
  {
    RegisterBody(Text(v.name), Text(v.email), Text(v.password),
                 List(seq(|v.specialties|, i requires 0 <= i < |v.specialties| => Text(v.specialties[i]))),
                 Text(v.qualifications), NumberOrUndefined(v.experience), NumberOrUndefined(v.age))
  }

  /** What the form accepts the backend accepts: the form's bounds on name,
      password and specialties are at least as strict, and a submitted age or
      experience is a number meeting the form's bound. */
  lemma AcceptedFormPassesBackend(v: RegisterValues)
    requires FormIssues(v) == []
    ensures RegisterIssues(SubmittedBody(v)) == []
    ensures SubmittedBody(v).experience.Number? ==> SubmittedBody(v).experience.n >= 0.0
    ensures SubmittedBody(v).age.Number? ==> SubmittedBody(v).age.n >= 18.0
    ensures SubmittedBody(v).age.Undefined? <==> v.age == ""
  {
  }

  /** The backend is laxer than the form: a six-character password and a
      one-letter name pass the backend but not the form. */
  lemma BackendLaxerThanForm()
    ensures var v := RegisterValues("A", "a@b.c", "secret", ["surgery"], "", "", "");
      && FormIssues(v) == [NameTooShort, PasswordUnder8]
      && RegisterIssues(SubmittedBody(v)) == []
  {
    var v := RegisterValues("A", "a@b.c", "secret", ["surgery"], "", "", "");
    assert FormIssues(v) == IssueList(false, false, true, true, true);
    assert IssueList(false, false, true, true, true) == [NameTooShort, PasswordUnder8];
    var b := SubmittedBody(v);
    assert b.specialties.items[0] == Text("surgery");
    assert NonEmptyTextList(b.specialties);
    assert b.experience == Undefined && b.age == Undefined;
  }

  /** A whole number of years typed as digits is accepted and sent as that
      number; a minus sign in front of a positive count is refused. */
  lemma ExperienceAsTyped(years: nat)
    ensures var v := RegisterValues("Dr A", "a@b.c", "password", ["surgery"], "", NatToString(years), "");
      && ExperienceNegative !in FormIssues(v)
      && SubmittedBody(v).experience == Number(years as real)
    ensures years > 0 ==> !EmptyOrAtLeast(['-'] + NatToString(years), 0.0)
  {
    JsNumberOfCount(years);
  }
}

=== FILE: schemas.dfy ===
/** The request validators of the backend (backend/zodTypes.js): the schedule
    body accepted for slot generation and the doctor registration body. A
    request field is a JSON value; the schemas accept a body exactly when every
    field has the required kind and bounds and the cross-field checks hold. */
module Schemas {
  import opened Wrappers

  /** A JSON value as it reaches a schema. `NotANumber` is a numeric value that
      is NaN, which `z.number()` refuses. `Infinite` is a number literal too large
      for a double, such as `1e400`, which `JSON.parse` reads as `Infinity` or
      `-Infinity`; `z.number()` accepts it, and only `.int()` refuses it. */
  datatype Value =
    | Undefined
    | Null
    | Number(n: real)
    | Infinite(positive: bool)
    | NotANumber
    | Text(s: string)
    | List(items: seq<Value>)
    | Other

  predicate IsInteger(x: real) {
    x.Floor as real == x
  }

  /** `z.number().int().nonnegative()`. */
  function NonNegativeInt(v: Value): (r: Option<nat>)
    ensures r.Some? <==> v.Number? && IsInteger(v.n) && v.n >= 0.0
    ensures r.Some? ==> r.value as real == v.n
  {
    if v.Number? && IsInteger(v.n) && v.n >= 0.0 then Some(v.n.Floor) else None
  }

  /** `z.number().int().positive()`. */
  function PositiveInt(v: Value): (r: Option<nat>)
    ensures r.Some? <==> v.Number? && IsInteger(v.n) && v.n > 0.0
    ensures r.Some? ==> r.value > 0 && r.value as real == v.n
  {
    if v.Number? && IsInteger(v.n) && v.n > 0.0 then Some(v.n.Floor) else None
  }

  /** An amount that `z.number()` lets through: a finite number or `Infinity`. */
  datatype Amount = Finite(x: real) | PlusInfinity

  predicate NonNegativeAmount(a: Amount) {
    a.PlusInfinity? || a.x >= 0.0
  }

  /** The JSON value an amount is sent as. */
  function AmountValue(a: Amount): Value {
    match a
    case Finite(x) => Number(x)
    case PlusInfinity => Infinite(true)
  }

  /** `z.number().nonnegative()`: any non-negative number, fractions included,
      and `Infinity`, which is not below 0; `-Infinity` is. */
  function NonNegativeNumber(v: Value): (r: Option<Amount>)
    ensures r.Some? <==> (v.Number? && v.n >= 0.0) || v == Infinite(true)
    ensures r.Some? ==> NonNegativeAmount(r.value) && AmountValue(r.value) == v
  {
    match v
    case Number(n) => if n >= 0.0 then Some(Finite(n)) else None
    case Infinite(positive) => if positive then Some(PlusInfinity) else None
    case _ => None
  }

  /** The body `scheduleSchema` parses, one JSON value per field. */
  datatype ScheduleBody = ScheduleBody(
    workingStartTimestamp: Value,
    workingEndTimestamp: Value,
    numberOfAppointments: Value,
    averageAppointmentTime: Value,
    onlineConsultationPrice: Value,
    physicalConsultationPrice: Value,
    startDate: Value,
    endDate: Value)

  /** A schedule as the schema hands it on. */
  datatype Schedule = Schedule(
    workingStartTimestamp: nat,
    workingEndTimestamp: nat,
    numberOfAppointments: nat,
    averageAppointmentTime: nat,
    onlineConsultationPrice: Amount,
    physicalConsultationPrice: Amount,
    startDate: nat,
    endDate: nat)

  /** What every accepted schedule satisfies: positive counts, non-negative
      prices, a working window that starts before it ends and a date range
      whose start is not after its end. */
  predicate WellFormed(s: Schedule) {
    && s.numberOfAppointments > 0
    && s.averageAppointmentTime > 0
    && NonNegativeAmount(s.onlineConsultationPrice)
    && NonNegativeAmount(s.physicalConsultationPrice)
    && s.workingStartTimestamp < s.workingEndTimestamp
    && s.startDate <= s.endDate
  }

  /** The body a schedule is sent as. */
  function BodyOf(s: Schedule): ScheduleBody {
    ScheduleBody(Number(s.workingStartTimestamp as real), Number(s.workingEndTimestamp as real),
                 Number(s.numberOfAppointments as real), Number(s.averageAppointmentTime as real),
                 AmountValue(s.onlineConsultationPrice), AmountValue(s.physicalConsultationPrice),
                 Number(s.startDate as real), Number(s.endDate as real))
  }

  /** `scheduleSchema.safeParse`: the field checks, then the two refinements.
      `None` is a failed parse. */
  function ParseSchedule(b: ScheduleBody): (r: Option<Schedule>)
    ensures r.Some? ==> WellFormed(r.value) && BodyOf(r.value) == b
    ensures r.Some? <==>
      && NonNegativeInt(b.workingStartTimestamp).Some?
      && NonNegativeInt(b.workingEndTimestamp).Some?
      && PositiveInt(b.numberOfAppointments).Some?
      && PositiveInt(b.averageAppointmentTime).Some?
      && NonNegativeNumber(b.onlineConsultationPrice).Some?
      && NonNegativeNumber(b.physicalConsultationPrice).Some?
      && NonNegativeInt(b.startDate).Some?
      && NonNegativeInt(b.endDate).Some?
      && b.workingStartTimestamp.n < b.workingEndTimestamp.n
      && b.startDate.n <= b.endDate.n
  {
    match (NonNegativeInt(b.workingStartTimestamp), NonNegativeInt(b.workingEndTimestamp),
           PositiveInt(b.numberOfAppointments), PositiveInt(b.averageAppointmentTime),
           NonNegativeNumber(b.onlineConsultationPrice), NonNegativeNumber(b.physicalConsultationPrice),
           NonNegativeInt(b.startDate), NonNegativeInt(b.endDate))
    case (Some(ws), Some(we), Some(n), Some(avg), Some(online), Some(physical), Some(sd), Some(ed)) =>
      if ws < we && sd <= ed then Some(Schedule(ws, we, n, avg, online, physical, sd, ed)) else None
    case _ => None
  }

  /** Every well-formed schedule is accepted as itself when sent as a body. */
  lemma ScheduleRoundTrip(s: Schedule)
    requires WellFormed(s)
    ensures ParseSchedule(BodyOf(s)) == Some(s)
  {
    assert IsInteger(s.workingStartTimestamp as real) && IsInteger(s.workingEndTimestamp as real);
    assert IsInteger(s.numberOfAppointments as real) && IsInteger(s.averageAppointmentTime as real);
    assert IsInteger(s.startDate as real) && IsInteger(s.endDate as real);
  }

  /** A window that does not start before it ends is refused, whatever else the body holds. */
  lemma EmptyWindowRefused(b: ScheduleBody)
    requires b.workingStartTimestamp.Number? && b.workingEndTimestamp.Number?
    requires b.workingStartTimestamp.n >= b.workingEndTimestamp.n
    ensures ParseSchedule(b) == None
  {
  }

  /** A date range that ends before it starts is refused. */
  lemma ReversedDatesRefused(b: ScheduleBody)
    requires b.startDate.Number? && b.endDate.Number? && b.startDate.n > b.endDate.n
    ensures ParseSchedule(b) == None
  {
  }

  /** A fractional or non-positive slot count or slot length is refused. */
  lemma CountsMustBePositiveIntegers(b: ScheduleBody)
    requires || (b.numberOfAppointments.Number? && (!IsInteger(b.numberOfAppointments.n) || b.numberOfAppointments.n <= 0.0))
             || (b.averageAppointmentTime.Number? && (!IsInteger(b.averageAppointmentTime.n) || b.averageAppointmentTime.n <= 0.0))
    ensures ParseSchedule(b) == None
  {
  }

  /** `Infinity` passes the plain and non-negative number checks but never an
      integer check: it is accepted as a price and refused as a count, a slot
      length, a timestamp or a date; `-Infinity` is refused as a price. Either
      is accepted as an optional experience or age. */
  lemma InfinityOnlyAsPrice(v: Value)
    requires v.Infinite?
    ensures NonNegativeNumber(v).Some? <==> v.positive
    ensures NonNegativeInt(v).None? && PositiveInt(v).None?
    ensures OptionalNumber(v)
  {
  }

  /** A schedule whose prices are both `Infinity` is accepted, the prices kept as
      `Infinity`, while an infinite slot count refuses the body. */
  lemma InfinitePricesAccepted(b: ScheduleBody)
    requires ParseSchedule(b).Some?
    ensures var i := b.(onlineConsultationPrice := Infinite(true), physicalConsultationPrice := Infinite(true));
      && ParseSchedule(i).Some?
      && ParseSchedule(i).value.onlineConsultationPrice == PlusInfinity
      && ParseSchedule(i).value.physicalConsultationPrice == PlusInfinity
      && ParseSchedule(b.(numberOfAppointments := Infinite(true))) == None
  {
  }

  /** The body `registerDoctorSchema` parses. */
  datatype RegisterBody = RegisterBody(
    name: Value,
    email: Value,
    password: Value,
    specialties: Value,
    qualifications: Value,
    experience: Value,
    age: Value)

  datatype RegisterIssue =
    | NameRequired
    | EmailInvalid
    | PasswordTooShort
    | SpecialtiesRequired
    | QualificationsNotText
    | ExperienceNotNumber
    | AgeNotNumber

  /** `z.string().min(k)`. */
  predicate TextAtLeast(v: Value, k: nat) {
    v.Text? && |v.s| >= k
  }

  /** `z.array(z.string()).nonempty()`. */
  predicate NonEmptyTextList(v: Value) {
    v.List? && |v.items| > 0 && forall i :: 0 <= i < |v.items| ==> v.items[i].Text?
  }

  /** `z.string().optional()` and `z.number().optional()`: absent, or of the kind. */
  predicate OptionalText(v: Value) {
    v.Undefined? || v.Text?
  }

  /** `z.number().optional()` lets `Infinity` and `-Infinity` through: they are numbers. */
  predicate OptionalNumber(v: Value) {
    v.Undefined? || v.Number? || v.Infinite?
  }

  /** The issue list from the outcome of each check, in field order. */
  function RegisterIssueList(nameOk: bool, emailOk: bool, passwordOk: bool, specialtiesOk: bool,
                             qualificationsOk: bool, experienceOk: bool, ageOk: bool): (r: seq<RegisterIssue>)
    ensures r == [] <==>
      nameOk && emailOk && passwordOk && specialtiesOk && qualificationsOk && experienceOk && ageOk
    ensures NameRequired in r <==> !nameOk
    ensures EmailInvalid in r <==> !emailOk
    ensures PasswordTooShort in r <==> !passwordOk
    ensures SpecialtiesRequired in r <==> !specialtiesOk
    ensures QualificationsNotText in r <==> !qualificationsOk
    ensures ExperienceNotNumber in r <==> !experienceOk
    ensures AgeNotNumber in r <==> !ageOk
  {
    RegisterIssueMembers(nameOk, emailOk, passwordOk, specialtiesOk, qualificationsOk, experienceOk, ageOk);
    Unless(nameOk, NameRequired) + Unless(emailOk, EmailInvalid)
    + Unless(passwordOk, PasswordTooShort) + Unless(specialtiesOk, SpecialtiesRequired)
    + Unless(qualificationsOk, QualificationsNotText)
    + Unless(experienceOk, ExperienceNotNumber) + Unless(ageOk, AgeNotNumber)
  }

  /** The register checks' issues, built up one check at a time: each issue is
      reported exactly when its own check fails. */
  lemma RegisterIssueMembers(nameOk: bool, emailOk: bool, passwordOk: bool, specialtiesOk: bool,
                             qualificationsOk: bool, experienceOk: bool, ageOk: bool)
    ensures var r := Unless(nameOk, NameRequired) + Unless(emailOk, EmailInvalid)
                     + Unless(passwordOk, PasswordTooShort) + Unless(specialtiesOk, SpecialtiesRequired)
                     + Unless(qualificationsOk, QualificationsNotText)
                     + Unless(experienceOk, ExperienceNotNumber) + Unless(ageOk, AgeNotNumber);
      && (r == [] <==>
          nameOk && emailOk && passwordOk && specialtiesOk && qualificationsOk && experienceOk && ageOk)
      && (NameRequired in r <==> !nameOk)
      && (EmailInvalid in r <==> !emailOk)
      && (PasswordTooShort in r <==> !passwordOk)
      && (SpecialtiesRequired in r <==> !specialtiesOk)
      && (QualificationsNotText in r <==> !qualificationsOk)
      && (ExperienceNotNumber in r <==> !experienceOk)
      && (AgeNotNumber in r <==> !ageOk)
  {
    RegisterIssueMember(nameOk, emailOk, passwordOk, specialtiesOk, qualificationsOk, experienceOk, ageOk, NameRequired);
    RegisterIssueMember(nameOk, emailOk, passwordOk, specialtiesOk, qualificationsOk, experienceOk, ageOk, EmailInvalid);
    RegisterIssueMember(nameOk, emailOk, passwordOk, specialtiesOk, qualificationsOk, experienceOk, ageOk, PasswordTooShort);
    RegisterIssueMember(nameOk, emailOk, passwordOk, specialtiesOk, qualificationsOk, experienceOk, ageOk, SpecialtiesRequired);
    RegisterIssueMember(nameOk, emailOk, passwordOk, specialtiesOk, qualificationsOk, experienceOk, ageOk, QualificationsNotText);
    RegisterIssueMember(nameOk, emailOk, passwordOk, specialtiesOk, qualificationsOk, experienceOk, ageOk, ExperienceNotNumber);
    RegisterIssueMember(nameOk, emailOk, passwordOk, specialtiesOk, qualificationsOk, experienceOk, ageOk, AgeNotNumber);
  }

  /** Whether one issue is among the register checks' issues, one check at a time. */
  lemma RegisterIssueMember(nameOk: bool, emailOk: bool, passwordOk: bool, specialtiesOk: bool,
                            qualificationsOk: bool, experienceOk: bool, ageOk: bool, x: RegisterIssue)
    ensures var r := Unless(nameOk, NameRequired) + Unless(emailOk, EmailInvalid)
                     + Unless(passwordOk, PasswordTooShort) + Unless(specialtiesOk, SpecialtiesRequired)
                     + Unless(qualificationsOk, QualificationsNotText)
                     + Unless(experienceOk, ExperienceNotNumber) + Unless(ageOk, AgeNotNumber);
      x in r <==>
        || (!nameOk && x == NameRequired) || (!emailOk && x == EmailInvalid)
        || (!passwordOk && x == PasswordTooShort) || (!specialtiesOk && x == SpecialtiesRequired)
        || (!qualificationsOk && x == QualificationsNotText)
        || (!experienceOk && x == ExperienceNotNumber) || (!ageOk && x == AgeNotNumber)
  {
    var r1 := Unless(nameOk, NameRequired);
    var r2 := r1 + Unless(emailOk, EmailInvalid);
    var r3 := r2 + Unless(passwordOk, PasswordTooShort);
    var r4 := r3 + Unless(specialtiesOk, SpecialtiesRequired);
    var r5 := r4 + Unless(qualificationsOk, QualificationsNotText);
    var r6 := r5 + Unless(experienceOk, ExperienceNotNumber);
    InUnlessAppended(r1, emailOk, EmailInvalid, x);
    InUnlessAppended(r2, passwordOk, PasswordTooShort, x);
    InUnlessAppended(r3, specialtiesOk, SpecialtiesRequired, x);
    InUnlessAppended(r4, qualificationsOk, QualificationsNotText, x);
    InUnlessAppended(r5, experienceOk, ExperienceNotNumber, x);
    InUnlessAppended(r6, ageOk, AgeNotNumber, x);
  }



  /** Every issue `registerDoctorSchema` reports, in field order; the e-mail
      check is reduced to "is a string". */
  function RegisterIssues(b: RegisterBody): (r: seq<RegisterIssue>)
    ensures r == [] <==>
      && TextAtLeast(b.name, 1)
      && b.email.Text?
      && TextAtLeast(b.password, 6)
      && NonEmptyTextList(b.specialties)
      && OptionalText(b.qualifications)
      && OptionalNumber(b.experience)
      && OptionalNumber(b.age)
    ensures NameRequired in r <==> !TextAtLeast(b.name, 1)
    ensures EmailInvalid in r <==> !b.email.Text?
    ensures PasswordTooShort in r <==> !TextAtLeast(b.password, 6)
    ensures SpecialtiesRequired in r <==> !NonEmptyTextList(b.specialties)
    ensures QualificationsNotText in r <==> !OptionalText(b.qualifications)
    ensures ExperienceNotNumber in r <==> !OptionalNumber(b.experience)
    ensures AgeNotNumber in r <==> !OptionalNumber(b.age)
  {
    RegisterIssueList(TextAtLeast(b.name, 1), b.email.Text?, TextAtLeast(b.password, 6),
                      NonEmptyTextList(b.specialties), OptionalText(b.qualifications),
                      OptionalNumber(b.experience), OptionalNumber(b.age))
  }

  /** Experience and age may be left out, but a NaN or a string in their place is refused. */
  lemma OptionalNumbersRefuseNaN(b: RegisterBody)
    requires b.experience == NotANumber || b.age == NotANumber || b.experience.Text? || b.age.Text?
    ensures RegisterIssues(b) != []
  {
  }
}

=== FILE: slot_form.dfy ===
/** The doctor's "Create Appointment Slots" form
    (doctor/src/pages/CreateAppointments.jsx): its validation schema, its
    default values, and the submit handler that turns accepted values into the
    request body. Counts are the numbers `z.coerce.number()` produced (`None`
    for NaN); dates are the picked days in milliseconds since the epoch, or
    `None` while unset. */
module SlotForm {
  import opened Wrappers
  import opened SlotSchedule

  datatype FormValues = FormValues(
    dailyWorkingStartTime: string,
    dailyWorkingEndTime: string,
    numberOfAppointments: Option<real>,
    averageAppointmentTime: Option<real>,
    from: Option<int>,
    to: Option<int>)

  datatype FormIssue =
    | StartTimeRequired
    | EndTimeRequired
    | AppointmentCountInvalid
    | AppointmentLengthInvalid
    | StartDateRequired
    | EndDateRequired
    | EndBeforeStart

  /** An integer from 1 to 50. */
  predicate CountInBounds(v: Option<real>) {
    v.Some? && v.value.Floor as real == v.value && 0.0 < v.value <= 50.0
  }

  /** Any number, fractions included, from 15 to 180 minutes. */
  predicate LengthInBounds(v: Option<real>) {
    v.Some? && 0.0 < v.value && 15.0 <= v.value <= 180.0
  }

  /** The issue list from the outcome of each check, in field order. */
  function IssueList(startSet: bool, endSet: bool, countOk: bool, lengthOk: bool,
                     fromSet: bool, toSet: bool, ordered: bool): (r: seq<FormIssue>)
    ensures StartTimeRequired in r <==> !startSet
    ensures EndTimeRequired in r <==> !endSet
    ensures AppointmentCountInvalid in r <==> !countOk
    ensures AppointmentLengthInvalid in r <==> !lengthOk
    ensures StartDateRequired in r <==> !fromSet
    ensures EndDateRequired in r <==> !toSet
    ensures EndBeforeStart in r <==> !ordered
    ensures r == [] <==> startSet && endSet && countOk && lengthOk && fromSet && toSet && ordered
  {
    IssueListMembers(startSet, endSet, countOk, lengthOk, fromSet, toSet, ordered);
    Unless(startSet, StartTimeRequired) + Unless(endSet, EndTimeRequired)
    + Unless(countOk, AppointmentCountInvalid) + Unless(lengthOk, AppointmentLengthInvalid)
    + Unless(fromSet, StartDateRequired) + Unless(toSet, EndDateRequired)
    + Unless(ordered, EndBeforeStart)
  }

  /** The form checks' issues, taken one issue at a time. */
  lemma IssueListMembers(startSet: bool, endSet: bool, countOk: bool, lengthOk: bool,
                         fromSet: bool, toSet: bool, ordered: bool)
    ensures var r := Unless(startSet, StartTimeRequired) + Unless(endSet, EndTimeRequired)
                     + Unless(countOk, AppointmentCountInvalid) + Unless(lengthOk, AppointmentLengthInvalid)
                     + Unless(fromSet, StartDateRequired) + Unless(toSet, EndDateRequired)
                     + Unless(ordered, EndBeforeStart);
      && (StartTimeRequired in r <==> !startSet)
      && (EndTimeRequired in r <==> !endSet)
      && (AppointmentCountInvalid in r <==> !countOk)
      && (AppointmentLengthInvalid in r <==> !lengthOk)
      && (StartDateRequired in r <==> !fromSet)
      && (EndDateRequired in r <==> !toSet)
      && (EndBeforeStart in r <==> !ordered)
      && (r == [] <==> startSet && endSet && countOk && lengthOk && fromSet && toSet && ordered)
  {
    IssueListMember(startSet, endSet, countOk, lengthOk, fromSet, toSet, ordered, StartTimeRequired);
    IssueListMember(startSet, endSet, countOk, lengthOk, fromSet, toSet, ordered, EndTimeRequired);
    IssueListMember(startSet, endSet, countOk, lengthOk, fromSet, toSet, ordered, AppointmentCountInvalid);
    IssueListMember(startSet, endSet, countOk, lengthOk, fromSet, toSet, ordered, AppointmentLengthInvalid);
    IssueListMember(startSet, endSet, countOk, lengthOk, fromSet, toSet, ordered, StartDateRequired);
    IssueListMember(startSet, endSet, countOk, lengthOk, fromSet, toSet, ordered, EndDateRequired);
    IssueListMember(startSet, endSet, countOk, lengthOk, fromSet, toSet, ordered, EndBeforeStart);
  }

  /** Whether one issue is among the form checks' issues, one check at a time. */
  lemma IssueListMember(startSet: bool, endSet: bool, countOk: bool, lengthOk: bool,
                        fromSet: bool, toSet: bool, ordered: bool, x: FormIssue)
    ensures var r := Unless(startSet, StartTimeRequired) + Unless(endSet, EndTimeRequired)
                     + Unless(countOk, AppointmentCountInvalid) + Unless(lengthOk, AppointmentLengthInvalid)
                     + Unless(fromSet, StartDateRequired) + Unless(toSet, EndDateRequired)
                     + Unless(ordered, EndBeforeStart);
      x in r <==>
        || (!startSet && x == StartTimeRequired) || (!endSet && x == EndTimeRequired)
        || (!countOk && x == AppointmentCountInvalid) || (!lengthOk && x == AppointmentLengthInvalid)
        || (!fromSet && x == StartDateRequired) || (!toSet && x == EndDateRequired)
        || (!ordered && x == EndBeforeStart)
  {
    var r1 := Unless(startSet, StartTimeRequired);
    var r2 := r1 + Unless(endSet, EndTimeRequired);
    var r3 := r2 + Unless(countOk, AppointmentCountInvalid);
    var r4 := r3 + Unless(lengthOk, AppointmentLengthInvalid);
    var r5 := r4 + Unless(fromSet, StartDateRequired);
    var r6 := r5 + Unless(toSet, EndDateRequired);
    InUnlessAppended(r1, endSet, EndTimeRequired, x);
    InUnlessAppended(r2, countOk, AppointmentCountInvalid, x);
    InUnlessAppended(r3, lengthOk, AppointmentLengthInvalid, x);
    InUnlessAppended(r4, fromSet, StartDateRequired, x);
    InUnlessAppended(r5, toSet, EndDateRequired, x);
    InUnlessAppended(r6, ordered, EndBeforeStart, x);
  }

  /** Every issue the form schema reports, in field order. The range refinement
      is checked only once both dates are present. */
  function FormIssues(v: FormValues): (r: seq<FormIssue>)
    ensures StartTimeRequired in r <==> v.dailyWorkingStartTime == ""
    ensures EndTimeRequired in r <==> v.dailyWorkingEndTime == ""
    ensures AppointmentCountInvalid in r <==> !CountInBounds(v.numberOfAppointments)
    ensures AppointmentLengthInvalid in r <==> !LengthInBounds(v.averageAppointmentTime)
    ensures StartDateRequired in r <==> v.from.None?
    ensures EndDateRequired in r <==> v.to.None?
    ensures EndBeforeStart in r <==> v.from.Some? && v.to.Some? && v.from.value > v.to.value
    ensures r == [] <==>
      && |v.dailyWorkingStartTime| >= 1 && |v.dailyWorkingEndTime| >= 1
      && CountInBounds(v.numberOfAppointments) && LengthInBounds(v.averageAppointmentTime)
      && v.from.Some? && v.to.Some? && v.from.value <= v.to.value
  {
    IssueList(|v.dailyWorkingStartTime| >= 1, |v.dailyWorkingEndTime| >= 1,
              CountInBounds(v.numberOfAppointments), LengthInBounds(v.averageAppointmentTime),
              v.from.Some?, v.to.Some?, !(v.from.Some? && v.to.Some? && v.from.value > v.to.value))
  }

  /** The form as it first appears: 10:00 to 16:00, 8 slots of 45 minutes, no dates. */
  function Defaults(): FormValues {
    FormValues("10:00", "16:00", Some(8.0), Some(45.0), None, None)
  }

  /** The default values meet every bound; choosing any ordered pair of dates is
      all it takes for the form to be accepted, and with no dates it is not. */
  lemma DefaultsAccepted(from: int, to: int)
    ensures FormIssues(Defaults()) == [StartDateRequired, EndDateRequired]
    ensures from <= to <==> FormIssues(Defaults().(from := Some(from), to := Some(to))) == []
  {
    assert (8.0).Floor == 8;
  }

  /** The request body; dates stay in milliseconds (their ISO rendering is not modelled). */
  datatype Payload = Payload(
    dailyWorkingStartTime: string,
    dailyWorkingEndTime: string,
    numberOfAppointments: real,
    averageAppointmentTime: real,
    startDate: int,
    endDate: int)

  datatype SubmitOutcome =
    | MissingDates
    | MissingToken
    | Post(payload: Payload, bearer: string)

  /** `onSubmit`: no request without both dates or without a stored token (the
      empty string counts as no token); otherwise the body copies the two time
      strings, the two numbers and the two dates. */
  function OnSubmit(v: FormValues, token: Option<string>): (r: SubmitOutcome)
    requires v.numberOfAppointments.Some? && v.averageAppointmentTime.Some?
    ensures r.Post? <==> v.from.Some? && v.to.Some? && token.Some? && token.value != ""
    ensures (v.from.None? || v.to.None?) ==> r == MissingDates
    ensures r.Post? ==>
      && r.bearer == token.value
      && r.payload.dailyWorkingStartTime == v.dailyWorkingStartTime
      && r.payload.dailyWorkingEndTime == v.dailyWorkingEndTime
      && r.payload.numberOfAppointments == v.numberOfAppointments.value
      && r.payload.averageAppointmentTime == v.averageAppointmentTime.value
      && r.payload.startDate == v.from.value && r.payload.endDate == v.to.value
  {
    if v.from.None? || v.to.None? then MissingDates
    else
      var payload := Payload(v.dailyWorkingStartTime, v.dailyWorkingEndTime,
                             v.numberOfAppointments.value, v.averageAppointmentTime.value,
                             v.from.value, v.to.value);
      if token.None? || token.value == "" then MissingToken else Post(payload, token.value)
  }

  /** The request the generator receives for a posted body whose slot length is
      a whole number of minutes. */
  function RequestOf(p: Payload): ScheduleRequest
    requires p.numberOfAppointments.Floor as real == p.numberOfAppointments
    requires p.averageAppointmentTime.Floor as real == p.averageAppointmentTime
  {
    ScheduleRequest(p.dailyWorkingStartTime, p.dailyWorkingEndTime,
                    p.numberOfAppointments.Floor, p.averageAppointmentTime.Floor,
                    p.startDate, p.endDate)
  }

  /** An accepted form with a whole-minute slot length posts a request the
      generator can run: positive slot length, at most 50 slots a day, and a date
      range that does not run backwards. */
  lemma AcceptedFormFeedsGenerator(v: FormValues, token: string)
    requires FormIssues(v) == [] && token != ""
    requires v.averageAppointmentTime.value.Floor as real == v.averageAppointmentTime.value
    ensures OnSubmit(v, Some(token)).Post?
    ensures var req := RequestOf(OnSubmit(v, Some(token)).payload);
      && 15 <= req.averageAppointmentTime <= 180
      && 1 <= req.numberOfAppointments <= 50
      && PlanOf(req).slotsPerDay <= 50
      && req.startDate <= req.endDate
  {
    var req := RequestOf(OnSubmit(v, Some(token)).payload);
    assert req.numberOfAppointments as real == v.numberOfAppointments.value;
    assert req.averageAppointmentTime as real == v.averageAppointmentTime.value;
  }
}

=== FILE: slot_generator.dfy ===
/** `createAppointment` (backend/controllers/appointment.controller.js) as the
    controller runs it once the request has passed validation: the past-date
    guard, the nested day/slot loop with its duplicate check against the
    store, and the batch insert with its response. The store is the set of
    (doctor, day, time) keys already present; the current time and the outcome
    of the batch insert are parameters. */
module SlotGenerator {
  import opened AppointmentModel
  import opened SlotSchedule
  import opened ListOps

  /** The HTTP status, `success` flag and `message` of the JSON reply. */
  datatype Response = Response(status: int, success: bool, message: string)

  const PastDateMessage: string := "Start date cannot be in the past."
  const InsertFailedMessage: string := "Internal server error"

  /** `rows` and `duplicateCount` are what the duplicate checks leave once the
      candidates `c` have been considered: the rows of the fresh ones and the
      number of the others. */
  predicate StagedAfter(c: seq<SlotKey>, store: set<SlotKey>, rows: seq<AppointmentDoc>, duplicateCount: nat) {
    rows == Rows(Fresh(c, store)) && duplicateCount == Skipped(c, store)
  }

  /** The duplicate check of lines 69-86 for one candidate: a key already in the
      store is counted, any other is pushed as a new available row. */
  method StageOne(key: SlotKey, store: set<SlotKey>, ghost seen: seq<SlotKey>,
                  rowsIn: seq<AppointmentDoc>, duplicatesIn: nat)
    returns (rows: seq<AppointmentDoc>, duplicateCount: nat)
    requires rowsIn == Rows(Fresh(seen, store)) && duplicatesIn == Skipped(seen, store)
    ensures rows == Rows(Fresh(seen + [key], store)) && duplicateCount == Skipped(seen + [key], store)
  {
    StageOneMore(seen, key, store);
    if key in store {
      rows, duplicateCount := rowsIn, duplicatesIn + 1;
    } else {
      RowsAppend(Fresh(seen, store), key);
      rows, duplicateCount := rowsIn + [SlotDoc(key)], duplicatesIn;
    }
  }

  /** One turn of the inner loop (lines 63-88): render the slot time, check the
      key against the store, and advance the slot time by one slot length. */
  method StageSlot(doctor: DoctorId, plan: Plan, day: int, store: set<SlotKey>, ghost before: seq<SlotKey>,
                   i: int, slotTime: int, rowsIn: seq<AppointmentDoc>, duplicatesIn: nat)
    returns (rows: seq<AppointmentDoc>, duplicateCount: nat, nextTime: int)
    requires Fits(plan) && 0 <= i < plan.slotsPerDay
    requires slotTime == plan.startOffset + i * plan.durationMs
    requires StagedAfter(before + DayCandidates(doctor, plan, day)[..i], store, rowsIn, duplicatesIn)
    ensures StagedAfter(before + DayCandidates(doctor, plan, day)[..i + 1], store, rows, duplicateCount)
    ensures nextTime == plan.startOffset + (i + 1) * plan.durationMs
  {
    DayStep(doctor, plan, day, before, i, slotTime);
    var key := SlotKey(doctor, day, SlotLabel(day, slotTime));
    rows, duplicateCount := StageOne(key, store, before + DayCandidates(doctor, plan, day)[..i], rowsIn, duplicatesIn);
    nextTime := slotTime + plan.durationMs;
  }

  /** The inner loop of lines 59-90 for one day: consider the day's slot times
      from the start offset in steps of the slot length, stop once a time passes
      the end of the window, and stage the candidates the store does not hold.
      `before` is what the earlier days contributed. */
  method StageDay(doctor: DoctorId, plan: Plan, day: int, store: set<SlotKey>,
                  ghost before: seq<SlotKey>, rowsIn: seq<AppointmentDoc>, duplicatesIn: nat)
    returns (rows: seq<AppointmentDoc>, duplicateCount: nat)
    requires Fits(plan)
    requires rowsIn == Rows(Fresh(before, store)) && duplicatesIn == Skipped(before, store)
    ensures var c := before + DayCandidates(doctor, plan, day);
      rows == Rows(Fresh(c, store)) && duplicateCount == Skipped(c, store)
  {
    rows, duplicateCount := rowsIn, duplicatesIn;
    var slotTime := plan.startOffset;
    var i := 0;
    assert before + DayCandidates(doctor, plan, day)[..0] == before;
    // The guard's second half is the break of line 61.
    while i < plan.slotsPerDay && slotTime <= plan.endOffset
      invariant 0 <= i <= SlotCount(plan)
      invariant slotTime == plan.startOffset + i * plan.durationMs
      invariant StagedAfter(before + DayCandidates(doctor, plan, day)[..i], store, rows, duplicateCount)
    {
      rows, duplicateCount, slotTime := StageSlot(doctor, plan, day, store, before, i, slotTime, rows, duplicateCount);
      i := i + 1;
    }
    LoopRanEveryTurn(plan, i, slotTime);
    assert DayCandidates(doctor, plan, day)[..i] == DayCandidates(doctor, plan, day);
  }

  /** The inner loop stops only when its count is used up: every slot the plan
      allows ends in the window, so the break of line 61 never fires. */
  lemma LoopRanEveryTurn(plan: Plan, i: int, slotTime: int)
    requires Fits(plan) && 0 <= i <= SlotCount(plan)
    requires slotTime == plan.startOffset + i * plan.durationMs
    requires !(i < plan.slotsPerDay && slotTime <= plan.endOffset)
    ensures i == SlotCount(plan)
  {
    if i < plan.slotsPerDay {
      CandidateEndsInWindow(plan, i);
      assert false;
    }
  }

  /** One turn of the inner loop: the slot time is inside the window (so the
      break is never taken), its key is the day's next candidate, and the next
      slot time is one slot length later. */
  lemma DayStep(doctor: DoctorId, plan: Plan, day: int, before: seq<SlotKey>, i: int, slotTime: int)
    requires Fits(plan) && 0 <= i < plan.slotsPerDay
    requires slotTime == plan.startOffset + i * plan.durationMs
    ensures slotTime <= plan.endOffset
    ensures var today := DayCandidates(doctor, plan, day);
      && SlotKey(doctor, day, SlotLabel(day, slotTime)) == today[i]
      && before + today[..i + 1] == (before + today[..i]) + [today[i]]
    ensures slotTime + plan.durationMs == plan.startOffset + (i + 1) * plan.durationMs
  {
    CandidateEndsInWindow(plan, i);
    PrefixStep(before, DayCandidates(doctor, plan, day), i);
    assert slotTime + plan.durationMs == plan.startOffset + (i + 1) * plan.durationMs by {
      assert (i + 1) * plan.durationMs == i * plan.durationMs + plan.durationMs;
    }
  }

  /** The outer loop of lines 57-91: walk the days `firstDay` through `finalDay`
      and stage each day's new slots, counting the others. */
  method StageDays(doctor: DoctorId, plan: Plan, firstDay: int, finalDay: int, store: set<SlotKey>)
    returns (rows: seq<AppointmentDoc>, duplicateCount: nat)
    requires Fits(plan)
    ensures var c := Candidates(doctor, plan, firstDay, finalDay);
      rows == Rows(Fresh(c, store)) && duplicateCount == Skipped(c, store)
  {
    rows, duplicateCount := [], 0;
    var currentDay := firstDay;
    while currentDay <= finalDay
      invariant firstDay <= currentDay
      invariant currentDay <= finalDay + 1 || currentDay == firstDay
      invariant rows == Rows(Fresh(Candidates(doctor, plan, firstDay, currentDay - 1), store))
      invariant duplicateCount == Skipped(Candidates(doctor, plan, firstDay, currentDay - 1), store)
      decreases finalDay - currentDay
    {
      ghost var before := Candidates(doctor, plan, firstDay, currentDay - 1);
      rows, duplicateCount := StageDay(doctor, plan, currentDay, store, before, rows, duplicateCount);
      assert Candidates(doctor, plan, firstDay, currentDay) == before + DayCandidates(doctor, plan, currentDay);
      currentDay := currentDay + 1;
    }
  }

  /** Both dates of the request make valid `Date`s. Otherwise the first or the
      last day is an Invalid Date, `currentDay <= finalDay` compares NaN and is
      false, and the day loop of line 57 never runs. */
  predicate DatesInRange(req: ScheduleRequest) {
    ValidTime(req.startDate) && ValidTime(req.endDate)
  }

  /** The candidates the controller walks for a validated request: those of the
      UTC days from the start date's to the end date's when both dates are in
      range, and none otherwise. Stepping `currentDay` past the range cannot
      happen before the last day, which lies in it. */
  function RequestCandidates(doctor: DoctorId, req: ScheduleRequest): (c: seq<SlotKey>)
    requires req.averageAppointmentTime > 0
    ensures !DatesInRange(req) ==> c == []
    ensures DatesInRange(req) && DayOf(req.endDate) >= DayOf(req.startDate) ==>
      |c| == (DayOf(req.endDate) - DayOf(req.startDate) + 1) * SlotCount(PlanOf(req))
    ensures forall k :: k in c ==> k.doctorId == doctor && DayOf(req.startDate) <= k.day <= DayOf(req.endDate)
  {
    CandidateCount(doctor, PlanOf(req), DayOf(req.startDate), DayOf(req.endDate));
    CandidateDaysInRange(doctor, PlanOf(req), DayOf(req.startDate), DayOf(req.endDate));
    if DatesInRange(req) then Candidates(doctor, PlanOf(req), DayOf(req.startDate), DayOf(req.endDate)) else []
  }

  /** The generation for a validated request: every candidate is either staged
      as a new row or counted as a duplicate; a date outside the `Date` range
      stages nothing. */
  method StageSlots(doctor: DoctorId, req: ScheduleRequest, store: set<SlotKey>)
    returns (rows: seq<AppointmentDoc>, duplicateCount: nat)
    requires req.averageAppointmentTime > 0
    ensures var c := RequestCandidates(doctor, req);
      && rows == Rows(Fresh(c, store))
      && duplicateCount == Skipped(c, store)
      && |rows| + duplicateCount == |c|
    ensures !DatesInRange(req) ==> rows == [] && duplicateCount == 0
  {
    PlanFits(req);
    ghost var c := RequestCandidates(doctor, req);
    if DatesInRange(req) {
      rows, duplicateCount := StageDays(doctor, PlanOf(req), DayOf(req.startDate), DayOf(req.endDate), store);
    } else {
      rows, duplicateCount := [], 0;
    }
    StagedPlusSkipped(c, store);
  }

  /** `startDateTime < currentDate` (line 25): an Invalid Date compares false, so
      a start date outside the `Date` range is never "in the past". */
  predicate StartsInPast(req: ScheduleRequest, nowMs: int) {
    ValidTime(req.startDate) && req.startDate < nowMs
  }

  /** The whole handler after validation: a start date before `nowMs` is refused
      before any slot is considered; otherwise the staged rows are inserted in one
      batch, and the reply reports the skipped duplicates, or a server error when
      the insert fails (in which case nothing is stored). A date outside the
      `Date` range gets the success reply with nothing inserted. */
  method CreateAppointment(doctor: DoctorId, req: ScheduleRequest, nowMs: int,
                           store: set<SlotKey>, insertSucceeds: bool)
    returns (resp: Response, inserted: seq<AppointmentDoc>)
    requires req.averageAppointmentTime > 0
    ensures StartsInPast(req, nowMs) ==> resp == Response(400, false, PastDateMessage) && inserted == []
    ensures !StartsInPast(req, nowMs) && !insertSucceeds ==>
      resp == Response(500, false, InsertFailedMessage) && inserted == []
    ensures !StartsInPast(req, nowMs) && insertSucceeds ==>
      var c := RequestCandidates(doctor, req);
      && inserted == Rows(Fresh(c, store))
      && resp == Response(201, true, SuccessMessage(Skipped(c, store)))
      && (forall k :: k in c ==> k in store || SlotDoc(k) in inserted)
    ensures !ValidTime(req.startDate) && insertSucceeds ==>
      resp == Response(201, true, SuccessText) && inserted == []
    ensures !StartsInPast(req, nowMs) && !DatesInRange(req) && insertSucceeds ==>
      resp == Response(201, true, SuccessText) && inserted == []
  {
    if StartsInPast(req, nowMs) {
      return Response(400, false, PastDateMessage), [];
    }
    var rows, duplicateCount := StageSlots(doctor, req, store);
    InsertedRowsCoverCandidates(RequestCandidates(doctor, req), store);
    if insertSucceeds {
      resp := Response(201, true, SuccessMessage(duplicateCount));
      inserted := rows;
    } else {
      resp := Response(500, false, InsertFailedMessage);
      inserted := [];
    }
  }
}

=== FILE: slot_schedule.dfy ===
/** The arithmetic of slot generation (backend/controllers/appointment.controller.js,
    `createAppointment`), stated as functions: working times as millisecond
    offsets from UTC midnight, the per-day slot count, the "HH:MM" labels, the
    enumeration of candidate (doctor, day, time) keys, and which candidates are
    staged or skipped against the existing store. */
module SlotSchedule {
  import opened Wrappers
  import opened Text
  import opened AppointmentModel
  import opened ListOps
  import opened Numbers

  const MsPerMinute: int := 60000
  const MsPerHour: int := 3600000
  const MsPerDay: int := 86400000

  /** A working time after `split(':').map(Number)`: its hour and minute fields. */
  datatype WorkingTime = WorkingTime(hour: nat, minute: nat) {
    /** `hour * 3600000 + minute * 60000`: always a whole number of minutes. */
    function OffsetMs(): (ms: int)
      ensures ms == MsPerMinute * (hour * 60 + minute)
    {
      hour * MsPerHour + minute * MsPerMinute
    }
  }

  /** `"H:M".split(':').map(Number)`, read only when both fields are decimal
      digits (an empty field is 0, as `Number("")` is); any other field gives
      `None`, the NaN case. Signed, fractional, exponent and padded fields,
      which `Number` also reads, are outside this model. */
  function ParseWorkingTime(s: string): Option<WorkingTime> {
    var parts := Split(s, ':');
    if |parts| >= 2 && AllDigits(parts[0]) && AllDigits(parts[1]) then
      Some(WorkingTime(DigitsValue(parts[0]), DigitsValue(parts[1])))
    else
      None
  }

  /** The range of a JavaScript `Date`: at most 8.64e15 ms, that is 10^8 days,
      either side of the epoch (ECMA-262, "Time Values and Time Range"). A date
      built from a time outside it is an Invalid Date, whose time is NaN. */
  const MaxTimeMs: int := 8_640_000_000_000_000
  const MaxDay: int := 100_000_000

  predicate ValidTime(ms: int) {
    -MaxTimeMs <= ms <= MaxTimeMs
  }

  /** What `getUTCHours()` and `getUTCMinutes()` padded to two digits render for
      an Invalid Date: `NaN.toString()` is already longer than two characters. */
  const InvalidLabel: string := "NaN:NaN"

  /** The "HH:MM" label of the instant `offsetMs` after a UTC midnight, as
      `getUTCHours()` and `getUTCMinutes()` padded to two digits render it. */
  function ClockLabel(offsetMs: int): (s: string)
    ensures |s| == 5 && s[2] == ':'
  {
    var tod := offsetMs % MsPerDay;
    Pad2RoundTrip(tod / MsPerHour);
    Pad2RoundTrip((tod % MsPerHour) / MsPerMinute);
    Pad2(tod / MsPerHour) + ":" + Pad2((tod % MsPerHour) / MsPerMinute)
  }

  /** The label of the slot `offsetMs` after the midnight of day `day`: its clock
      time while the instant is a valid date, and "NaN:NaN" once it is past the
      range. */
  function SlotLabel(day: int, offsetMs: int): string {
    if ValidTime(day * MsPerDay + offsetMs) then ClockLabel(offsetMs) else InvalidLabel
  }

  /** Within the range a slot label has the five characters of "HH:MM", outside
      it the seven of "NaN:NaN". */
  lemma SlotLabelShape(day: int, offsetMs: int)
    ensures |SlotLabel(day, offsetMs)| == 5 <==> ValidTime(day * MsPerDay + offsetMs)
    ensures ValidTime(day * MsPerDay + offsetMs) ==> SlotLabel(day, offsetMs)[2] == ':'
    ensures !ValidTime(day * MsPerDay + offsetMs) ==> SlotLabel(day, offsetMs) == InvalidLabel
  {
  }

  /** On a day inside the range, every slot of a window within one day has its
      clock label. */
  lemma SlotLabelInRange(day: int, offsetMs: int)
    requires -MaxDay <= day < MaxDay && 0 <= offsetMs <= MsPerDay
    ensures SlotLabel(day, offsetMs) == ClockLabel(offsetMs)
  {
  }

  lemma WholeMinutes(o: int)
    requires 0 <= o < MsPerDay && o % MsPerMinute == 0
    ensures (o / MsPerHour) * MsPerHour + ((o % MsPerHour) / MsPerMinute) * MsPerMinute == o
    ensures o / MsPerHour < 24 && (o % MsPerHour) / MsPerMinute < 60
  {
    var h := o / MsPerHour;
    var r := o % MsPerHour;
    assert o == h * MsPerHour + r;
    assert r % MsPerMinute == 0 by {
      assert MsPerHour == 60 * MsPerMinute;
      assert o == (h * 60) * MsPerMinute + r;
    }
  }

  /** Reading a slot label back as a working time gives the same offset: the label
      loses nothing for whole-minute offsets within one day. */
  lemma ClockLabelRoundTrip(o: int)
    requires 0 <= o < MsPerDay && o % MsPerMinute == 0
    ensures ParseWorkingTime(ClockLabel(o)).Some?
    ensures ParseWorkingTime(ClockLabel(o)).value.OffsetMs() == o
  {
    var h := o / MsPerHour;
    var m := (o % MsPerHour) / MsPerMinute;
    WholeMinutes(o);
    assert o % MsPerDay == o;
    assert ClockLabel(o) == Pad2(h) + ":" + Pad2(m);
    ParsePaddedFields(h, m);
  }

  /** Distinct whole-minute offsets within one day get distinct labels. */
  lemma ClockLabelInjective(a: int, b: int)
    requires 0 <= a < MsPerDay && a % MsPerMinute == 0
    requires 0 <= b < MsPerDay && b % MsPerMinute == 0
    requires ClockLabel(a) == ClockLabel(b)
    ensures a == b
  {
    ClockLabelRoundTrip(a);
    ClockLabelRoundTrip(b);
  }

  /** The request fields the generator reads once validation has passed; both
      dates are milliseconds since the epoch. */
  datatype ScheduleRequest = ScheduleRequest(
    dailyWorkingStartTime: string,
    dailyWorkingEndTime: string,
    numberOfAppointments: int,
    averageAppointmentTime: int,
    startDate: int,
    endDate: int)

  /** The per-request constants of the generation loop: the working window as
      offsets from midnight, the slot length and the number of slots per day. */
  datatype Plan = Plan(startOffset: int, endOffset: int, durationMs: int, slotsPerDay: int)

  /** `slotsPerDay = min(numberOfAppointments, floor((endOffset - startOffset) / durationMs))`.
      An unparsable working time makes the count NaN, and the loop `i < NaN` runs
      no iteration, which a count of 0 models. */
  function PlanOf(req: ScheduleRequest): (p: Plan)
    requires req.averageAppointmentTime > 0
    ensures p.durationMs == req.averageAppointmentTime * MsPerMinute && p.durationMs > 0
    ensures p.startOffset % MsPerMinute == 0 && p.startOffset >= 0
  {
    var duration := req.averageAppointmentTime * MsPerMinute;
    match (ParseWorkingTime(req.dailyWorkingStartTime), ParseWorkingTime(req.dailyWorkingEndTime))
    case (Some(s), Some(e)) =>
      Plan(s.OffsetMs(), e.OffsetMs(), duration,
           Min(req.numberOfAppointments, (e.OffsetMs() - s.OffsetMs()) / duration))
    case _ => Plan(0, 0, duration, 0)
  }

  /** The slot count is the requested count capped by how many whole slots fit in
      the working window: it never exceeds the request, its slots fit, and one more
      slot would either exceed the request or overrun the window. */
  lemma SlotsPerDayIsCappedCapacity(req: ScheduleRequest)
    requires req.averageAppointmentTime > 0
    requires ParseWorkingTime(req.dailyWorkingStartTime).Some?
    requires ParseWorkingTime(req.dailyWorkingEndTime).Some?
    ensures var p := PlanOf(req);
      && p.startOffset == ParseWorkingTime(req.dailyWorkingStartTime).value.OffsetMs()
      && p.endOffset == ParseWorkingTime(req.dailyWorkingEndTime).value.OffsetMs()
      && p.slotsPerDay <= req.numberOfAppointments
      && (p.slotsPerDay > 0 ==> p.startOffset + p.slotsPerDay * p.durationMs <= p.endOffset)
      && (p.slotsPerDay == req.numberOfAppointments
          || p.startOffset + (p.slotsPerDay + 1) * p.durationMs > p.endOffset)
  {
    var p := PlanOf(req);
    FloorCap(req.numberOfAppointments, p.endOffset - p.startOffset, p.durationMs);
  }

  /** `min(n, floor(w / d))` is the largest count up to `n` whose total length fits in `w`. */
  lemma FloorCap(n: int, w: int, d: int)
    requires d > 0
    ensures var k := Min(n, w / d);
      && k <= n
      && (k > 0 ==> k * d <= w)
      && (k == n || (k + 1) * d > w)
  {
    var q := w / d;
    assert w == q * d + w % d;
    assert (q + 1) * d == q * d + d;
    if Min(n, q) > 0 {
      MulMonotone(Min(n, q), q, d);
    }
  }

  lemma MulMonotone(a: int, b: int, d: int)
    requires a <= b && d > 0
    ensures a * d <= b * d
  {
  }

  /** Every slot the plan allows ends within the working window. */
  predicate Fits(p: Plan) {
    p.durationMs > 0 && (p.slotsPerDay > 0 ==> p.startOffset + p.slotsPerDay * p.durationMs <= p.endOffset)
  }

  lemma PlanFits(req: ScheduleRequest)
    requires req.averageAppointmentTime > 0
    ensures Fits(PlanOf(req))
  {
    var p := PlanOf(req);
    if ParseWorkingTime(req.dailyWorkingStartTime).Some? && ParseWorkingTime(req.dailyWorkingEndTime).Some? {
      SlotsPerDayIsCappedCapacity(req);
    }
  }

  /** The i-th candidate of a day starts at `startOffset + i·duration` and ends by
      `endOffset`, so the early exit of the day's loop is never taken. */
  lemma CandidateEndsInWindow(p: Plan, i: int)
    requires Fits(p) && 0 <= i < p.slotsPerDay
    ensures p.startOffset + i * p.durationMs + p.durationMs <= p.endOffset
  {
    MulMonotone(i + 1, p.slotsPerDay, p.durationMs);
  }

  /** An empty or inverted working window yields no slot. */
  lemma NoWindowNoSlots(req: ScheduleRequest)
    requires req.averageAppointmentTime > 0
    requires ParseWorkingTime(req.dailyWorkingStartTime).Some?
    requires ParseWorkingTime(req.dailyWorkingEndTime).Some?
    requires ParseWorkingTime(req.dailyWorkingEndTime).value.OffsetMs()
          <= ParseWorkingTime(req.dailyWorkingStartTime).value.OffsetMs()
    ensures PlanOf(req).slotsPerDay <= 0
  {
    SlotsPerDayIsCappedCapacity(req);
  }

  /** The UTC day index of an instant: `setUTCHours(0, 0, 0, 0)` moves it back to
      that day's midnight, `day * 86400000`. */
  function DayOf(ms: int): int {
    ms / MsPerDay
  }

  /** What the duplicate check looks up: doctor, day and "HH:MM" label. */
  datatype SlotKey = SlotKey(doctorId: DoctorId, day: int, time: string)

  function SlotCount(p: Plan): nat {
    if p.slotsPerDay > 0 then p.slotsPerDay else 0
  }

  /** The candidates of one day, in loop order. */
  function DayCandidates(doctor: DoctorId, p: Plan, day: int): (c: seq<SlotKey>)
    ensures |c| == SlotCount(p)
  {
    seq(SlotCount(p), i requires 0 <= i => SlotKey(doctor, day, SlotLabel(day, p.startOffset + i * p.durationMs)))
  }

  /** The candidates of the days `firstDay` through `lastDay`, day by day. */
  function Candidates(doctor: DoctorId, p: Plan, firstDay: int, lastDay: int): (c: seq<SlotKey>)
    decreases lastDay - firstDay
  {
    if lastDay < firstDay then [] else Candidates(doctor, p, firstDay, lastDay - 1) + DayCandidates(doctor, p, lastDay)
  }

  /** The candidate list is the days `firstDay..lastDay` in increasing order, each
      contributing its slots in order: position `(d - firstDay)·k + i` holds slot
      `i` of day `d`. */
  lemma {:induction false} CandidateAt(doctor: DoctorId, p: Plan, firstDay: int, lastDay: int, d: int, i: int)
    requires firstDay <= d <= lastDay && 0 <= i < SlotCount(p)
    ensures |Candidates(doctor, p, firstDay, lastDay)| == (lastDay - firstDay + 1) * SlotCount(p)
    ensures 0 <= (d - firstDay) * SlotCount(p) + i < |Candidates(doctor, p, firstDay, lastDay)|
    ensures Candidates(doctor, p, firstDay, lastDay)[(d - firstDay) * SlotCount(p) + i]
         == SlotKey(doctor, d, SlotLabel(d, p.startOffset + i * p.durationMs))
    decreases lastDay - firstDay
  {
    CandidatePosition(doctor, p, firstDay, lastDay, d, i);
  }

  /** Position `(d - firstDay)·k + i` of the candidates is slot `i` of day `d`. */
  lemma {:induction false} CandidatePosition(doctor: DoctorId, p: Plan, firstDay: int, lastDay: int, d: int, i: int)
    requires firstDay <= d <= lastDay && 0 <= i < SlotCount(p)
    ensures |Candidates(doctor, p, firstDay, lastDay)| == (lastDay - firstDay + 1) * SlotCount(p)
    ensures 0 <= (d - firstDay) * SlotCount(p) + i < |Candidates(doctor, p, firstDay, lastDay)|
    ensures Candidates(doctor, p, firstDay, lastDay)[(d - firstDay) * SlotCount(p) + i]
         == DayCandidates(doctor, p, d)[i]
    decreases lastDay - firstDay
  {
    var k := SlotCount(p);
    var prefix := Candidates(doctor, p, firstDay, lastDay - 1);
    CandidateCount(doctor, p, firstDay, lastDay - 1);
    SlotStep(lastDay - firstDay, k);
    if d < lastDay {
      CandidatePosition(doctor, p, firstDay, lastDay - 1, d, i);
    } else {
      assert (d - firstDay) * k == |prefix|;
    }
  }


  lemma {:induction false} CandidateCount(doctor: DoctorId, p: Plan, firstDay: int, lastDay: int)
    ensures lastDay < firstDay ==> |Candidates(doctor, p, firstDay, lastDay)| == 0
    ensures lastDay >= firstDay ==> |Candidates(doctor, p, firstDay, lastDay)| == (lastDay - firstDay + 1) * SlotCount(p)
    decreases lastDay - firstDay
  {
    if lastDay >= firstDay {
      CandidateCount(doctor, p, firstDay, lastDay - 1);
      assert (lastDay - firstDay + 1) * SlotCount(p) == (lastDay - firstDay) * SlotCount(p) + SlotCount(p);
    }
  }

  /** Every candidate belongs to the requesting doctor and to a day of the range. */
  lemma {:induction false} CandidateDaysInRange(doctor: DoctorId, p: Plan, firstDay: int, lastDay: int)
    ensures forall c :: c in Candidates(doctor, p, firstDay, lastDay) ==>
      c.doctorId == doctor && firstDay <= c.day <= lastDay
    decreases lastDay - firstDay
  {
    if lastDay >= firstDay {
      CandidateDaysInRange(doctor, p, firstDay, lastDay - 1);
    }
  }

  /** Two-digit hour and minute fields parse back to their values, whatever the
      hour (it is not limited to one day). */
  lemma ParsePaddedFields(h: nat, m: nat)
    requires h < 100 && m < 100
    ensures ParseWorkingTime(Pad2(h) + ":" + Pad2(m)) == Some(WorkingTime(h, m))
  {
    Pad2RoundTrip(h);
    Pad2RoundTrip(m);
    assert ':' !in Pad2(h) && ':' !in Pad2(m);
    assert Pad2(h) + ":" + Pad2(m) == Pad2(h) + [':'] + Pad2(m);
    SplitAtFirst(Pad2(h), ':', Pad2(m));
    SplitWithoutSeparator(Pad2(m), ':');
  }

  /** The label of `h` hours and `m` minutes after midnight, for a time within the day. */
  lemma LabelOfClockTime(h: nat, m: nat)
    requires h < 24 && m < 60
    ensures ClockLabel(h * MsPerHour + m * MsPerMinute) == Pad2(h) + ":" + Pad2(m)
  {
    var o := h * MsPerHour + m * MsPerMinute;
    assert 0 <= m * MsPerMinute < MsPerHour;
    assert o < MsPerDay;
    assert o / MsPerHour == h;
    assert o % MsPerHour == m * MsPerMinute;
  }

  /** The renderings of the fields used in the examples below. */
  lemma PaddedLiterals()
    ensures Pad2(0) == "00" && Pad2(9) == "09" && Pad2(10) == "10"
    ensures Pad2(20) == "20" && Pad2(40) == "40" && Pad2(48) == "48"
  {
    assert NatToString(10) == NatToString(1) + [DigitChar(0)];
    assert NatToString(20) == NatToString(2) + [DigitChar(0)];
    assert NatToString(40) == NatToString(4) + [DigitChar(0)];
    assert NatToString(48) == NatToString(4) + [DigitChar(8)];
  }

  /** The plan of a 09:00 to 10:00 day of 20-minute slots, ten requested. */
  lemma NineToTenPlan()
    ensures PlanOf(ScheduleRequest("09:00", "10:00", 10, 20, 0, 0))
         == Plan(9 * MsPerHour, 10 * MsPerHour, 20 * MsPerMinute, 3)
  {
    NineToTenTimes();
    assert (10 * MsPerHour - 9 * MsPerHour) / (20 * MsPerMinute) == 3;
  }

  lemma NineToTenTimes()
    ensures ParseWorkingTime("09:00") == Some(WorkingTime(9, 0))
    ensures ParseWorkingTime("10:00") == Some(WorkingTime(10, 0))
  {
    PaddedLiterals();
    ParsePaddedFields(9, 0);
    ParsePaddedFields(10, 0);
    assert "09:00" == "09" + ":" + "00" && "10:00" == "10" + ":" + "00";
  }

  /** The labels of 09:00, 09:20 and 09:40. */
  lemma NineToTenLabels()
    ensures ClockLabel(9 * MsPerHour) == "09:00"
    ensures ClockLabel(9 * MsPerHour + 20 * MsPerMinute) == "09:20"
    ensures ClockLabel(9 * MsPerHour + 2 * (20 * MsPerMinute)) == "09:40"
  {
    PaddedLiterals();
    LabelOfClockTime(9, 0);
    LabelOfClockTime(9, 20);
    LabelOfClockTime(9, 40);
    assert "09" + ":" + "00" == "09:00";
    assert "09" + ":" + "20" == "09:20" && "09" + ":" + "40" == "09:40";
  }

  /** The candidates of a day with three slots. */
  lemma ThreeCandidates(doctor: DoctorId, p: Plan, day: int)
    requires p.slotsPerDay == 3
    ensures DayCandidates(doctor, p, day)
         == [SlotKey(doctor, day, SlotLabel(day, p.startOffset)),
             SlotKey(doctor, day, SlotLabel(day, p.startOffset + p.durationMs)),
             SlotKey(doctor, day, SlotLabel(day, p.startOffset + 2 * p.durationMs))]
  {
    var d := p.durationMs;
    assert p.startOffset + 0 * d == p.startOffset && p.startOffset + 1 * d == p.startOffset + d;
    ListOfThree(DayCandidates(doctor, p, day));
  }

  /** A one-hour window of 20-minute slots holds three, at 09:00, 09:20 and
      09:40, even when ten are requested. */
  lemma ThreeSlotsInAnHour(doctor: DoctorId, day: int)
    requires -MaxDay <= day < MaxDay
    ensures var p := PlanOf(ScheduleRequest("09:00", "10:00", 10, 20, 0, 0));
      && p.slotsPerDay == 3
      && DayCandidates(doctor, p, day)
         == [SlotKey(doctor, day, "09:00"), SlotKey(doctor, day, "09:20"), SlotKey(doctor, day, "09:40")]
  {
    NineToTenPlan();
    NineToTenLabels();
    SlotLabelInRange(day, 9 * MsPerHour);
    SlotLabelInRange(day, 9 * MsPerHour + 20 * MsPerMinute);
    SlotLabelInRange(day, 9 * MsPerHour + 2 * (20 * MsPerMinute));
    ThreeCandidates(doctor, Plan(9 * MsPerHour, 10 * MsPerHour, 20 * MsPerMinute, 3), day);
  }

  /** The plan of a 00:00 to 48:00 day of two 1440-minute slots. */
  lemma PastMidnightPlan()
    ensures PlanOf(ScheduleRequest("00:00", "48:00", 2, 1440, 0, 0)) == Plan(0, 2 * MsPerDay, MsPerDay, 2)
  {
    PastMidnightTimes();
    assert (48 * MsPerHour - 0) / (1440 * MsPerMinute) == 2;
  }

  lemma PastMidnightTimes()
    ensures ParseWorkingTime("00:00") == Some(WorkingTime(0, 0))
    ensures ParseWorkingTime("48:00") == Some(WorkingTime(48, 0))
  {
    PaddedLiterals();
    ParsePaddedFields(0, 0);
    ParsePaddedFields(48, 0);
    assert "00:00" == "00" + ":" + "00" && "48:00" == "48" + ":" + "00";
  }

  /** Midnight and the next midnight share the label 00:00. */
  lemma MidnightLabels()
    ensures ClockLabel(0) == "00:00" && ClockLabel(MsPerDay) == "00:00"
  {
    PaddedLiterals();
    LabelOfClockTime(0, 0);
    assert "00" + ":" + "00" == "00:00";
    assert ClockLabel(0 * MsPerHour + 0 * MsPerMinute) == "00:00";
  }

  /** The candidates of a day with two slots. */
  lemma TwoCandidates(doctor: DoctorId, p: Plan, day: int)
    requires p.slotsPerDay == 2
    ensures DayCandidates(doctor, p, day)
         == [SlotKey(doctor, day, SlotLabel(day, p.startOffset)),
             SlotKey(doctor, day, SlotLabel(day, p.startOffset + p.durationMs))]
  {
    var d := p.durationMs;
    assert p.startOffset + 0 * d == p.startOffset && p.startOffset + 1 * d == p.startOffset + d;
    ListOfTwo(DayCandidates(doctor, p, day));
  }

  lemma ListOfTwo<T>(s: seq<T>)
    requires |s| == 2
    ensures s == [s[0], s[1]]
  {
  }

  lemma ListOfThree<T>(s: seq<T>)
    requires |s| == 3
    ensures s == [s[0], s[1], s[2]]
  {
  }

  /** The working window must lie within one day for the distinctness below: with
      "00:00" to "48:00" and two slots of 1440 minutes, both candidates of a day
      are labelled 00:00, so the same key is staged twice. */
  lemma WindowPastMidnightRepeatsKeys(doctor: DoctorId, day: int)
    requires -MaxDay <= day < MaxDay
    ensures var p := PlanOf(ScheduleRequest("00:00", "48:00", 2, 1440, 0, 0));
      && p.slotsPerDay == 2
      && p.endOffset == 2 * MsPerDay
      && DayCandidates(doctor, p, day) == [SlotKey(doctor, day, "00:00"), SlotKey(doctor, day, "00:00")]
      && !Distinct(Fresh(DayCandidates(doctor, p, day), {}))
  {
    PastMidnightPlan();
    MidnightLabels();
    SlotLabelInRange(day, 0);
    SlotLabelInRange(day, MsPerDay);
    var p := Plan(0, 2 * MsPerDay, MsPerDay, 2);
    TwoCandidates(doctor, p, day);
    FreshInEmptyStore(DayCandidates(doctor, p, day));
  }

  /** The day range matters too: on the last day a `Date` can hold, every slot
      after midnight is past the range, so 09:00, 09:20 and 09:40 are all
      labelled "NaN:NaN" and the same key is staged three times. */
  lemma LastDayRepeatsInvalidKeys(doctor: DoctorId)
    ensures var p := PlanOf(ScheduleRequest("09:00", "10:00", 10, 20, 0, 0));
      && DayCandidates(doctor, p, MaxDay)
         == [SlotKey(doctor, MaxDay, InvalidLabel), SlotKey(doctor, MaxDay, InvalidLabel),
             SlotKey(doctor, MaxDay, InvalidLabel)]
      && !Distinct(Fresh(DayCandidates(doctor, p, MaxDay), {}))
  {
    NineToTenPlan();
    var p := Plan(9 * MsPerHour, 10 * MsPerHour, 20 * MsPerMinute, 3);
    ThreeCandidates(doctor, p, MaxDay);
    FreshInEmptyStore(DayCandidates(doctor, p, MaxDay));
    assert DayCandidates(doctor, p, MaxDay)[0] == DayCandidates(doctor, p, MaxDay)[1];
  }

  /** When the working window lies within one day (from 00:00 up to 24:00) and
      the days lie inside the `Date` range, no two candidates share doctor, day
      and time. */
  lemma {:induction false} CandidatesDistinct(doctor: DoctorId, p: Plan, firstDay: int, lastDay: int)
    requires Fits(p) && p.durationMs % MsPerMinute == 0
    requires 0 <= p.startOffset && p.startOffset % MsPerMinute == 0 && p.endOffset <= MsPerDay
    requires -MaxDay <= firstDay && lastDay < MaxDay
    ensures Distinct(Candidates(doctor, p, firstDay, lastDay))
    decreases lastDay - firstDay
  {
    if lastDay >= firstDay {
      var prefix := Candidates(doctor, p, firstDay, lastDay - 1);
      var day := DayCandidates(doctor, p, lastDay);
      CandidatesDistinct(doctor, p, firstDay, lastDay - 1);
      CandidateDaysInRange(doctor, p, firstDay, lastDay - 1);
      DayCandidatesDistinct(doctor, p, lastDay);
      var all := prefix + day;
      forall i, j | 0 <= i < j < |all|
        ensures all[i] != all[j]
      {
        if j >= |prefix| && i < |prefix| {
          assert all[i] in prefix;
          assert all[j].day == lastDay;
        } else if i >= |prefix| {
          assert all[i] == day[i - |prefix|] && all[j] == day[j - |prefix|];
        }
      }
    }
  }

  lemma DayCandidatesDistinct(doctor: DoctorId, p: Plan, day: int)
    requires Fits(p) && p.durationMs % MsPerMinute == 0
    requires 0 <= p.startOffset && p.startOffset % MsPerMinute == 0 && p.endOffset <= MsPerDay
    requires -MaxDay <= day < MaxDay
    ensures Distinct(DayCandidates(doctor, p, day))
  {
    var c := DayCandidates(doctor, p, day);
    forall i, j | 0 <= i < j < SlotCount(p)
      ensures c[i] != c[j]
    {
      LabelsDiffer(p, day, i, j);
      assert c[i].time == SlotLabel(day, p.startOffset + i * p.durationMs);
      assert c[j].time == SlotLabel(day, p.startOffset + j * p.durationMs);
    }
  }

  /** Two different slots of a day inside one day get different labels. */
  lemma LabelsDiffer(p: Plan, day: int, i: int, j: int)
    requires Fits(p) && p.durationMs % MsPerMinute == 0
    requires 0 <= p.startOffset && p.startOffset % MsPerMinute == 0 && p.endOffset <= MsPerDay
    requires -MaxDay <= day < MaxDay
    requires 0 <= i < j < p.slotsPerDay
    ensures SlotLabel(day, p.startOffset + i * p.durationMs) != SlotLabel(day, p.startOffset + j * p.durationMs)
  {
    var a := p.startOffset + i * p.durationMs;
    var b := p.startOffset + j * p.durationMs;
    SlotOffsetsDistinct(p, i, j);
    SlotLabelInRange(day, a);
    SlotLabelInRange(day, b);
    if ClockLabel(a) == ClockLabel(b) {
      ClockLabelInjective(a, b);
    }
  }

  lemma SlotOffsetsDistinct(p: Plan, i: int, j: int)
    requires Fits(p) && p.durationMs % MsPerMinute == 0
    requires 0 <= p.startOffset && p.startOffset % MsPerMinute == 0 && p.endOffset <= MsPerDay
    requires 0 <= i < j < p.slotsPerDay
    ensures var a := p.startOffset + i * p.durationMs;
      && 0 <= a < MsPerDay && a % MsPerMinute == 0
    ensures var b := p.startOffset + j * p.durationMs;
      && 0 <= b < MsPerDay && b % MsPerMinute == 0
    ensures p.startOffset + i * p.durationMs < p.startOffset + j * p.durationMs
  {
    var d := p.durationMs;
    var x, y := i * d, j * d;
    CandidateEndsInWindow(p, j);
    assert p.startOffset + y + d <= p.endOffset;
    MulMonotone(i + 1, j, d);
    SlotStep(i, d);
    assert x + d <= y;
    MulMonotone(0, i, d);
    assert 0 <= x;
    MinuteMultiple(i, d);
    MinuteMultiple(j, d);
    MinuteSum(p.startOffset, x);
    MinuteSum(p.startOffset, y);
  }

  /** One slot further is one slot length later. */
  lemma SlotStep(i: int, d: int)
    ensures (i + 1) * d == i * d + d
  {
  }

  /** Whole minutes added to whole minutes are whole minutes. */
  lemma MinuteSum(x: int, y: int)
    requires x % MsPerMinute == 0 && y % MsPerMinute == 0
    ensures (x + y) % MsPerMinute == 0
  {
    assert x == (x / MsPerMinute) * MsPerMinute;
    assert y == (y / MsPerMinute) * MsPerMinute;
    assert x + y == (x / MsPerMinute + y / MsPerMinute) * MsPerMinute;
  }

  lemma MinuteMultiple(i: int, d: int)
    requires d % MsPerMinute == 0
    ensures (i * d) % MsPerMinute == 0
  {
    var q := d / MsPerMinute;
    assert d == q * MsPerMinute;
    assert i * d == (i * q) * MsPerMinute;
  }

  /** The row pushed for a free candidate: doctor, day at midnight, time, an
      explicit null type and price, status `available`, and no patient. */
  function SlotDoc(k: SlotKey): AppointmentDoc {
    AppointmentDoc(Some(k.doctorId), Absent, Some(k.day * MsPerDay), Some(k.time),
                   Given("available"), Null, Null, None)
  }

  /** Each pushed row is a valid document and becomes an available slot with no
      patient, type or price, at the candidate's day and time. */
  lemma SlotDocIsAvailableSlot(k: SlotKey)
    requires k.time != ""
    ensures Create(SlotDoc(k)) == Success(Appointment(k.doctorId, None, k.day * MsPerDay, k.time, Some(Available), None, None, None))
  {
  }

  /** The candidates not already in the store, in order. */
  function Fresh(c: seq<SlotKey>, store: set<SlotKey>): (f: seq<SlotKey>)
    ensures forall k :: k in f ==> k in c && k !in store
    ensures forall k :: k in c ==> k in store || k in f
    ensures |f| <= |c|
  {
    if c == [] then []
    else
      var last := c[|c| - 1];
      assert c == c[..|c| - 1] + [last];
      Fresh(c[..|c| - 1], store) + (if last in store then [] else [last])
  }

  /** How many candidates the duplicate check finds in the store. */
  function Skipped(c: seq<SlotKey>, store: set<SlotKey>): nat {
    if c == [] then 0
    else Skipped(c[..|c| - 1], store) + (if c[|c| - 1] in store then 1 else 0)
  }

  /** Against an empty store every candidate is staged. */
  lemma {:induction false} FreshInEmptyStore(c: seq<SlotKey>)
    ensures Fresh(c, {}) == c
  {
    if c != [] {
      FreshInEmptyStore(c[..|c| - 1]);
      assert c == c[..|c| - 1] + [c[|c| - 1]];
    }
  }

  /** Every candidate is either staged or skipped, never both. */
  lemma {:induction false} StagedPlusSkipped(c: seq<SlotKey>, store: set<SlotKey>)
    ensures |Fresh(c, store)| + Skipped(c, store) == |c|
  {
    if c != [] {
      StagedPlusSkipped(c[..|c| - 1], store);
    }
  }

  function Rows(keys: seq<SlotKey>): (rows: seq<AppointmentDoc>)
    ensures |rows| == |keys|
    ensures forall i :: 0 <= i < |keys| ==> rows[i] == SlotDoc(keys[i])
  {
    seq(|keys|, i requires 0 <= i < |keys| => SlotDoc(keys[i]))
  }

  /** Considering one more candidate either stages it or counts it as skipped. */
  lemma StageOneMore(c: seq<SlotKey>, x: SlotKey, store: set<SlotKey>)
    ensures Fresh(c + [x], store) == Fresh(c, store) + (if x in store then [] else [x])
    ensures Skipped(c + [x], store) == Skipped(c, store) + (if x in store then 1 else 0)
  {
    assert (c + [x])[..|c|] == c;
  }

  lemma RowsAppend(keys: seq<SlotKey>, x: SlotKey)
    ensures Rows(keys + [x]) == Rows(keys) + [SlotDoc(x)]
  {
  }

  /** Staging keeps the candidates' order, so distinct candidates stage distinct rows. */
  lemma {:induction false} FreshDistinct(c: seq<SlotKey>, store: set<SlotKey>)
    requires Distinct(c)
    ensures Distinct(Fresh(c, store))
  {
    if c != [] {
      var init := c[..|c| - 1];
      var last := c[|c| - 1];
      assert Distinct(init);
      FreshDistinct(init, store);
      assert last !in init;
    }
  }

  /** Running again against a store that holds every candidate (for instance the
      old store plus the first run's rows) stages nothing and skips every candidate. */
  lemma {:induction false} RerunSkipsEverything(c: seq<SlotKey>, store: set<SlotKey>)
    requires forall k :: k in c ==> k in store
    ensures Fresh(c, store) == []
    ensures Skipped(c, store) == |c|
  {
    if c != [] {
      assert c[|c| - 1] in c;
      RerunSkipsEverything(c[..|c| - 1], store);
    }
  }

  /** The rows a successful run inserts are exactly the documents of the
      candidates not already stored: afterwards every candidate has a slot. */
  lemma InsertedRowsCoverCandidates(c: seq<SlotKey>, store: set<SlotKey>)
    ensures forall k :: k in c ==> k in store || SlotDoc(k) in Rows(Fresh(c, store))
    ensures forall row :: row in Rows(Fresh(c, store)) ==>
      exists k :: k in c && k !in store && row == SlotDoc(k)
  {
    var f := Fresh(c, store);
    var rows := Rows(f);
    forall k | k in c && k !in store
      ensures SlotDoc(k) in rows
    {
      var i :| 0 <= i < |f| && f[i] == k;
      assert rows[i] == SlotDoc(k);
    }
    forall row | row in rows
      ensures exists k :: k in c && k !in store && row == SlotDoc(k)
    {
      var i :| 0 <= i < |rows| && rows[i] == row;
      assert f[i] in f;
    }
  }

  const SuccessText: string := "Appointments created successfully"

  /** The 201 message; the duplicate count is appended only when it is positive. */
  function SuccessMessage(duplicateCount: nat): (m: string)
    ensures |m| >= |SuccessText| && m[..|SuccessText|] == SuccessText
    ensures |m| > |SuccessText| <==> duplicateCount > 0
  {
    SuccessText + (if duplicateCount > 0 then " (Skipped " + NatToString(duplicateCount) + " duplicate slots)" else "")
  }

  /** The count written into the message reads back as the number of skipped slots. */
  lemma MessageReportsSkips(n: nat)
    requires n > 0
    ensures var m := SuccessMessage(n);
      && |m| == |SuccessText| + 10 + |NatToString(n)| + 17
      && AllDigits(m[|SuccessText| + 10 .. |m| - 17])
      && DigitsValue(m[|SuccessText| + 10 .. |m| - 17]) == n
  {
    var m := SuccessMessage(n);
    assert m[|SuccessText| + 10 .. |m| - 17] == NatToString(n);
    NatToStringRoundTrip(n);
  }
}

=== FILE: specialties.dfy ===
/** Picking specialties from a list: the multi-select of
    patient/src/components/SpecialtiesSelect.jsx (`handleSelect`) and the
    checkboxes of doctor/src/pages/RegisterPage.jsx. Both toggle one value in the
    selection: a selected value is filtered out, any other is appended. */
module Specialties {
  import opened Wrappers
  import opened Text
  import opened ListOps

  /** `selected.includes(v) ? selected.filter(item => item !== v) : [...selected, v]`. */
  function Toggle(selected: seq<string>, v: string): (r: seq<string>)
    ensures v in r <==> v !in selected
    ensures forall x :: x != v ==> (x in r <==> x in selected)
    ensures v !in selected ==> r == selected + [v]
  {
    if v in selected then RemoveAll(selected, v) else selected + [v]
  }

  /** Deselecting removes every copy of the value and keeps every other value,
      as often as it occurred, in its original order. */
  lemma DeselectKeepsOthers(selected: seq<string>, v: string)
    requires v in selected
    ensures SubsequenceOf(Toggle(selected, v), selected)
    ensures forall x :: x != v ==> multiset(Toggle(selected, v))[x] == multiset(selected)[x]
    ensures multiset(Toggle(selected, v))[v] == 0
  {
    RemoveAllFacts(selected, v);
  }

  /** Toggling the same value twice restores whether it is selected, and
      restores the selection itself when the value was not selected before. */
  lemma ToggleTwice(selected: seq<string>, v: string)
    ensures var r := Toggle(Toggle(selected, v), v);
      && (v in r <==> v in selected)
      && (forall x :: x in r <==> x in selected)
      && (v !in selected ==> r == selected)
  {
    if v !in selected {
      RemoveAllAppended(selected, v);
    }
  }

  /** A selection without repeats stays without repeats, however it is toggled. */
  lemma ToggleKeepsDistinct(selected: seq<string>, v: string)
    requires Distinct(selected)
    ensures Distinct(Toggle(selected, v))
  {
    if v in selected {
      RemoveAllFacts(selected, v);
    }
  }

  /** The multi-select: whether its list is open, and what is selected. */
  datatype SelectState = SelectState(open: bool, selected: seq<string>)

  /** `handleSelect`: the selection is toggled, the parent's `onChange` (when
      given) receives exactly the new selection, and the list closes. */
  function HandleSelect(s: SelectState, v: string, hasOnChange: bool): (r: (SelectState, Option<seq<string>>))
    ensures !r.0.open
    ensures v in r.0.selected <==> v !in s.selected
    ensures hasOnChange ==> r.1 == Some(r.0.selected)
    ensures !hasOnChange ==> r.1 == None
  {
    var next := Toggle(s.selected, v);
    (SelectState(false, next), if hasOnChange then Some(next) else None)
  }

  /** The specialties offered by the doctor registration form, as displayed. */
  const RegisterSpecialties: seq<string> := ["Cardiology", "Dermatology", "Endocrinology", "Gastroenterology",
                                             "Neurology", "Oncology", "Pediatrics", "Psychiatry", "Surgery"]

  /** A checkbox change on the registration form: checked appends the lowercased
      name, unchecked filters every copy of it out. */
  function CheckboxChange(value: seq<string>, spec: string, checked: bool): (r: seq<string>)
    ensures checked ==> r == value + [ToLower(spec)]
    ensures !checked ==> ToLower(spec) !in r && forall x :: x != ToLower(spec) ==> (x in r <==> x in value)
  {
    if checked then value + [ToLower(spec)] else RemoveAll(value, ToLower(spec))
  }

  /** A click flips the box from its shown state (checked exactly when the
      lowercased name is in the value), so every click is a toggle of that name,
      and a value built from clicks on the offered boxes holds only lowercased
      offered names, none twice. */
  lemma CheckboxClickToggles(value: seq<string>, spec: string)
    requires Distinct(value)
    requires forall x :: x in value ==> exists s :: s in RegisterSpecialties && x == ToLower(s)
    requires spec in RegisterSpecialties
    ensures var r := CheckboxChange(value, spec, ToLower(spec) !in value);
      && r == Toggle(value, ToLower(spec))
      && Distinct(r)
      && forall x :: x in r ==> exists s :: s in RegisterSpecialties && x == ToLower(s)
  {
    var v := ToLower(spec);
    ToggleKeepsDistinct(value, v);
  }
}

=== FILE: text.dfy ===
/** The JavaScript string and number conversions the application relies on:
    decimal rendering of a count (template literals), `padStart(2, '0')`,
    `String.prototype.split` on one character, `Number(s)` on the decimal forms
    the forms produce, and ASCII `toLowerCase`. */
module Text {
  import opened Wrappers

  predicate IsDigit(c: char) {
    '0' <= c <= '9'
  }

  predicate AllDigits(s: string) {
    forall i :: 0 <= i < |s| ==> IsDigit(s[i])
  }

  function DigitValue(c: char): (d: nat)
    requires IsDigit(c)
    ensures d < 10
  {
    c as int - '0' as int
  }

  function DigitChar(d: nat): (c: char)
    requires d < 10
    ensures IsDigit(c) && DigitValue(c) == d
  {
    ('0' as int + d) as char
  }

  /** The value of a string of decimal digits; the empty string is 0, as `Number("")` is. */
  function DigitsValue(s: string): nat
    requires AllDigits(s)
  {
    if s == [] then 0 else DigitsValue(s[..|s| - 1]) * 10 + DigitValue(s[|s| - 1])
  }

  /** `n.toString()` for a non-negative integer: shortest decimal form, no leading zero. */
  function NatToString(n: nat): (s: string)
    ensures 1 <= |s| && AllDigits(s)
    ensures |s| == 1 <==> n < 10
  {
    if n < 10 then [DigitChar(n)] else NatToString(n / 10) + [DigitChar(n % 10)]
  }

  /** Reading back a rendered count gives the count. */
  lemma {:induction false} NatToStringRoundTrip(n: nat)
    ensures DigitsValue(NatToString(n)) == n
  {
    if n >= 10 {
      var s := NatToString(n);
      assert s[..|s| - 1] == NatToString(n / 10);
      NatToStringRoundTrip(n / 10);
    }
  }

  /** A leading zero does not change the value of a digit string. */
  lemma {:induction false} LeadingZero(s: string)
    requires AllDigits(s)
    ensures AllDigits(['0'] + s) && DigitsValue(['0'] + s) == DigitsValue(s)
  {
    var t := ['0'] + s;
    if s != [] {
      assert t[..|t| - 1] == ['0'] + s[..|s| - 1];
      LeadingZero(s[..|s| - 1]);
    }
  }

  /** `s.padStart(2, '0')`. */
  function PadStart2(s: string): (r: string)
    ensures |s| < 2 ==> |r| == 2
    ensures |s| >= 2 ==> r == s
  {
    if |s| == 0 then "00" else if |s| == 1 then ['0'] + s else s
  }

  /** `n.toString().padStart(2, '0')`, used for clock hours and minutes. */
  function Pad2(n: nat): string {
    PadStart2(NatToString(n))
  }

  /** For a clock field below 100, the rendering is exactly two digits and reads back as `n`. */
  lemma Pad2RoundTrip(n: nat)
    requires n < 100
    ensures |Pad2(n)| == 2 && AllDigits(Pad2(n)) && DigitsValue(Pad2(n)) == n
  {
    var s := NatToString(n);
    NatToStringRoundTrip(n);
    if n < 10 {
      LeadingZero(s);
    } else {
      assert s == NatToString(n / 10) + [DigitChar(n % 10)];
      assert n / 10 < 10;
    }
  }

  /** `s.split(sep)` for a one-character separator: the pieces between separators,
      with an empty piece wherever two separators meet or one ends the string. */
  function Split(s: string, sep: char): (parts: seq<string>)
    ensures |parts| >= 1
    decreases |s|
  {
    if s == [] then [""]
    else
      var rest := Split(s[1..], sep);
      if s[0] == sep then [""] + rest else [[s[0]] + rest[0]] + rest[1..]
  }

  /** A string without the separator splits into itself alone. */
  lemma {:induction false} SplitWithoutSeparator(s: string, sep: char)
    requires sep !in s
    ensures Split(s, sep) == [s]
    decreases |s|
  {
    if s != [] {
      assert sep !in s[1..];
      SplitWithoutSeparator(s[1..], sep);
      assert [s[0]] + s[1..] == s;
    }
  }

  /** Splitting `a + sep + b` with no separator in `a` yields `a` followed by the pieces of `b`. */
  lemma {:induction false} SplitAtFirst(a: string, sep: char, b: string)
    requires sep !in a
    ensures Split(a + [sep] + b, sep) == [a] + Split(b, sep)
    decreases |a|
  {
    var s := a + [sep] + b;
    if a == [] {
      assert s[1..] == b;
    } else {
      assert s[1..] == a[1..] + [sep] + b;
      assert sep !in a[1..];
      SplitAtFirst(a[1..], sep, b);
      assert [a[0]] + a[1..] == a;
    }
  }

  function Pow10(k: nat): (p: nat)
    ensures p >= 1
  {
    if k == 0 then 1 else 10 * Pow10(k - 1)
  }

  /** `Number(s)` for an unsigned decimal: digits, or digits around one decimal point
      with at least one digit overall. `None` stands for NaN. */
  function UnsignedDecimal(s: string): (v: Option<real>)
    ensures v.Some? ==> v.value >= 0.0
  {
    var parts := Split(s, '.');
    if |parts| == 1 && s != [] && AllDigits(s) then
      Some(DigitsValue(s) as real)
    else if |parts| == 2 && AllDigits(parts[0]) && AllDigits(parts[1]) && |parts[0]| + |parts[1]| > 0 then
      Some(DigitsValue(parts[0]) as real + DigitsValue(parts[1]) as real / Pow10(|parts[1]|) as real)
    else
      None
  }

  /** `Number(s)` for the strings a numeric form input yields: the empty string is 0,
      an optional sign precedes an unsigned decimal, anything else is NaN (`None`). */
  function JsNumber(s: string): Option<real> {
    if s == [] then Some(0.0)
    else if s[0] == '-' then
      match UnsignedDecimal(s[1..])
      case Some(v) => Some(-v)
      case None => None
    else if s[0] == '+' then UnsignedDecimal(s[1..])
    else UnsignedDecimal(s)
  }

  /** A rendered count converts back to the same number, and its negation to the negative. */
  lemma JsNumberOfCount(n: nat)
    ensures JsNumber(NatToString(n)) == Some(n as real)
    ensures JsNumber(['-'] + NatToString(n)) == Some(-(n as real))
  {
    var s := NatToString(n);
    assert '.' !in s;
    SplitWithoutSeparator(s, '.');
    NatToStringRoundTrip(n);
    assert (['-'] + s)[1..] == s;
  }

  /** A string that starts with neither a sign nor a digit-or-point is NaN. */
  lemma JsNumberNonNumeric(s: string)
    requires s != [] && s[0] != '-' && s[0] != '+' && s[0] != '.' && !IsDigit(s[0])
    ensures JsNumber(s) == None
  {
    var parts := Split(s, '.');
    assert parts[0] == [s[0]] + Split(s[1..], '.')[0];
    assert !AllDigits(parts[0]) by { assert !IsDigit(parts[0][0]); }
  }

  function ToLowerChar(c: char): char {
    if 'A' <= c <= 'Z' then (c as int - 'A' as int + 'a' as int) as char else c
  }

  /** `s.toLowerCase()` on the ASCII letters the specialty names use. */
  function ToLower(s: string): (r: string)
    ensures |r| == |s|
    ensures forall i :: 0 <= i < |s| ==> r[i] == ToLowerChar(s[i])
  {
    seq(|s|, i requires 0 <= i < |s| => ToLowerChar(s[i]))
  }
}

=== FILE: wrappers.dfy ===
/** Failure-carrying datatypes shared by every module of the model: a missing
    JavaScript value (`null` / `undefined`) is `None`, and an operation that
    can be refused returns a `Result`. */
module Wrappers {

  datatype Option<+T> = None | Some(value: T) {

    /** The value, or `default` when absent (JavaScript's `x ?? default`). */
    function GetOr(default: T): T {
      match this
      case Some(v) => v
      case None => default
    }
  }

  datatype Result<+R, +E> = Success(value: R) | Failure(error: E)

  /** What one check of a validation schema contributes to its issue list:
      nothing when it holds, the check's own issue when it fails. */
  function Unless<T(==,!new)>(holds: bool, issue: T): (r: seq<T>)
    ensures |r| == if holds then 0 else 1
    ensures forall x :: x in r <==> !holds && x == issue
  {
    if holds then [] else [issue]
  }

  /** A value is in a list extended by one check's contribution exactly when it
      was already there or it is that check's issue and the check fails. */
  lemma InUnlessAppended<T(!new)>(front: seq<T>, holds: bool, issue: T, x: T)
    ensures x in front + Unless(holds, issue) <==> x in front || (!holds && x == issue)
  {
  }
}
